=== FILE: README.md ===
# Chunked, resumable file upload — a Dafny model

This project models the chunked-upload protocol of `ddxc-demo`. Four pieces make up that protocol:

- **The browser client (`web/index.js`).** It splits a file into one position-addressed chunk per CPU core. It asks the server which chunks it already holds, and hashes the rest in web workers. It forms a combined hash from the per-index hashes, uploads only the missing chunks, and requests a merge once every upload has gone through.
- **The Node service (`node-service/app.js`).** It stores chunks under `index_hash` file names and lists them back as `{index, hash}`. Its merge sorts the chunks by index, concatenates them, deletes them, and checks the combined hash recomputed from the hashes in the chunk names.
- **The Java controller (`FileUploadController.java`).** It does the same with different replies. Its merge checks the hash of the merged bytes, and its listing returns only the index prefixes.
- **The Java `FileService` (`FileService.java`).** Its chunk save overwrites instead of skipping. Its merge throws instead of replying, and it keeps the emptied chunk directory when the check fails.

The file system is an immutable `Store`. It maps a file name to its chunk directory, a map from chunk name to bytes, and a file name to its merged file. A directory exists exactly when its key is present. A directory's enumeration order (`readdirSync`, `listFiles`) is an input sequence constrained to be a permutation of the directory's names (`IsListing`). The digests are function parameters:

- `hash` is MD5 of a byte string (SparkMD5 in the worker, `DigestUtils.md5Hex` in Java). Its output is 32 lower-case hex digits, so it never contains '_'. The end-to-end results assume exactly that of `hash` (`forall b :: '_' !in hash(b)`), and the `EndToEnd` lemmas take '_'-free chunk hashes: a hash containing '_' would be listed back cut at its first '_' (`UnderscoreHashIsTruncated`);
- `combine` is `spark.end()` of a fresh SparkMD5 digest that has been fed exactly the given sequence of possibly `undefined` hashes; the loop that feeds them one by one is modelled (`AppendEach`, `CombinedHash`);
- `worker` is what a web worker posts back, where `None` means its `onerror` fired.

Both merges sort the listing with a stable insertion sort keyed by the parsed index prefix. Ties keep listing order, as `Array.prototype.sort` and `List.sort` do. The code breaks ties only by listing order, and the model follows it. Index prefixes are parsed as the code parses them:

- JavaScript's `parseInt`: leading white space, a sign, `0x`, then the longest digit prefix, with `NaN` as `None`;
- Java's `Integer.parseInt`: the whole string, ASCII digits, within the range of `int`, with `NumberFormatException` as `None`.

The headline results are in `EndToEnd`:

- `FreshUploadMerges`: with a `hash` whose output never contains '_', as MD5's does not, a client run against a server that has never seen the file leads to a Node merge that replies 200 and stores exactly the original bytes, whatever order the directory lists the chunks in.
- `ResumedRunMerges`: under the same condition on `hash`, the same holds when the server already holds any subset of the file's chunks from an interrupted run.

## Model

| member | source | states |
|---|---|---|
| Partition.WorkerCount | ddxc-demo/web/index.js:15 | The worker count is the reported core count when that is non-zero, and 4 otherwise; it is never zero. |
| Partition.ChunkSize | ddxc-demo/web/index.js:16 | The chunk length is `ceil(S / W)`: `W` chunks of it cover the file, and one byte less would not. |
| Partition.BlobSlice | ddxc-demo/web/index.js:21 | `file.slice(start, end)` clamps both offsets to the size: its length is the clamped end minus the clamped start, or 0 when that is not positive, and byte k is the file's byte at the clamped start plus k. |
| Partition.Split | ddxc-demo/web/index.js:17-22 | There are exactly `W` chunks, and chunk `i` is the file from `min(i*cs, S)` to `min(i*cs + cs, S)`. No chunk is longer than `cs`, and every chunk that starts at or past the end is empty. |
| Partition.SliceOfChunk | ddxc-demo/web/index.js:19-21 | `file.slice(start, end)` with the clamped end is exactly the clamped range of the file. |
| Partition.ContiguousPrefix | ddxc-demo/web/index.js:18-22 | The first `k` chunks, appended, are the first `min(k*cs, S)` bytes of the file. |
| Partition.SplitRoundTrip | ddxc-demo/web/index.js:16-22 | Appending the chunks in index order reproduces the file exactly. |
| ChunkKey.NatToDecimal | ddxc-demo/web/index.js:102 | The index text sent with an upload is non-empty and all decimal digits, with no leading zero: it is "0" for 0 and starts with a non-zero digit otherwise. |
| ChunkKey.IntToDecimal | ddxc-demo/java-service/src/main/java/com/example/javaservice/FileUploadController.java:33 | `Integer.toString` of an `int` in the chunk name starts with '-' exactly for negative values. After the sign it is a non-empty run of decimal digits without a leading zero, and it never contains '_'. |
| ChunkKey.ChunkName | ddxc-demo/node-service/app.js:39 | The stored name `${index}_${chunkHash}` is one character longer than the index and the hash together, and that character is the '_' right after the index. |
| ChunkKey.DecimalRoundTrip | ddxc-demo/node-service/app.js:29 | Reading the decimal text of `n` as digits gives back `n`. |
| ChunkKey.FindUnderscore | ddxc-demo/java-service/src/main/java/com/example/javaservice/FileUploadController.java:108 | `indexOf("_")` is the position of a '_' with none before it, or absent exactly when the name has no '_'. |
| ChunkKey.FirstSegment | ddxc-demo/node-service/app.js:28 | `split('_')[0]` is the longest '_'-free prefix of the name: the whole name, or the text up to the first '_'. |
| ChunkKey.SecondSegment | ddxc-demo/node-service/app.js:93 | `split('_')[1]` is `undefined` exactly when the name has no '_'. Otherwise it is the '_'-free text that follows the first '_' and runs up to the next '_' or the end. |
| ChunkKey.TrimStart | ddxc-demo/node-service/app.js:29 | `parseInt` first drops a leading run of white space: every dropped character is white space, the rest of the text is kept, and it does not start with white space. |
| ChunkKey.LeadingDigits | ddxc-demo/node-service/app.js:29 | `parseInt` reads the longest prefix made of digits of the radix, stopping at the first non-digit. |
| ChunkKey.LeadingDigitsStart | ddxc-demo/node-service/app.js:29 | `parseInt` reads at least one digit exactly when the text is non-empty and starts with a digit of the radix. |
| ChunkKey.JsParseInt | ddxc-demo/node-service/app.js:29 | `parseInt` is `NaN` when the text after leading white space is empty or starts with something other than a sign or a digit. Text starting `0x` or `0X` is read in radix 16: it is a non-negative number when a hex digit follows the prefix, and `NaN` when nothing or a non-hex character follows. Any other text starting with a digit is a non-negative number. The result is negative only after a '-'. |
| ChunkKey.JavaParseInt | ddxc-demo/java-service/src/main/java/com/example/javaservice/FileUploadController.java:69 | `Integer.parseInt` succeeds only on an optional sign followed by decimal digits and nothing else, with at least one digit (a bare "+" or "-" fails), within the range of `int`. It is negative only after a '-'. |
| ChunkKey.LeadingDigitsOfDigits | ddxc-demo/node-service/app.js:29 | A run made only of decimal digits is read whole. |
| ChunkKey.JsParseIntOfDigits | ddxc-demo/node-service/app.js:29 | `parseInt` of a non-empty run of decimal digits is the number it denotes; a leading `0` is not read as a hex prefix. |
| ChunkKey.JsParseIntOfDecimal | ddxc-demo/node-service/app.js:29 | `parseInt(String(n))` is `n` for every index `n`. |
| ChunkKey.SegmentsOfChunkName | ddxc-demo/node-service/app.js:39 | In `index_hash` with a '_'-free index, the first '_' sits right after the index, and the text after it is the hash. |
| ChunkKey.ChunkNameSegments | ddxc-demo/node-service/app.js:28 | `split('_')` of `index_hash` gives back the index and the hash when neither contains '_'. |
| ChunkKey.UnderscoreHashIsTruncated | ddxc-demo/node-service/app.js:93 | For every '_'-free index and every hash containing '_', `split('_')[1]` of the stored name is the hash cut at its first '_', never the hash itself. |
| ChunkKey.NodeDecode | ddxc-demo/node-service/app.js:27-30 | A listed name decodes to `{index, hash}`. The hash is `undefined` exactly when the name has no '_', and is otherwise '_'-free. A name without '_' has `parseInt` of the whole name as its index. |
| ChunkKey.NodeDecodeRoundTrip | ddxc-demo/node-service/app.js:27-30 | A name uploaded with index `n` and a '_'-free hash `h` is listed back as `{index: n, hash: h}`. |
| ChunkKey.NodeKey | ddxc-demo/node-service/app.js:78 | The Node sort key of a name starting with '_' is `NaN`, since its first segment is empty. A '_'-free name has `parseInt` of the whole name as its key. |
| ChunkKey.NodeKeyRoundTrip | ddxc-demo/node-service/app.js:77-80 | The Node merge sorts a name uploaded with index `n` under the key `n`, whatever its hash, even one containing '_'. |
| ChunkKey.JavaParseIntOfDecimal | ddxc-demo/java-service/src/main/java/com/example/javaservice/FileUploadController.java:69 | `Integer.parseInt(Integer.toString(i))` is `i` for every `int`, including negative ones, and the text has no '_'. |
| ChunkKey.JavaKey | ddxc-demo/java-service/src/main/java/com/example/javaservice/FileUploadController.java:69 | The Java sort key is an `int` when present. A name starting with '_' has none, and a '_'-free name has `Integer.parseInt` of the whole name. |
| ChunkKey.JavaKeyRoundTrip | ddxc-demo/java-service/src/main/java/com/example/javaservice/FileUploadController.java:68-71 | The Java merges sort a name written for `int` index `i` under the key `i`, whatever its hash. |
| StableSort.Insert | ddxc-demo/node-service/app.js:77-81 | Inserting an element adds exactly that element to the sequence's multiset. |
| StableSort.InsertSorted | ddxc-demo/node-service/app.js:77-81 | Inserting a keyed element into a sorted, fully keyed sequence leaves it sorted and fully keyed. |
| StableSort.InsertionSort | ddxc-demo/node-service/app.js:77-81 | The sorted listing is a permutation of the listing, and it is in ascending key order when every name has a key. |
| StableSort.AfterMatchesComparators | ddxc-demo/node-service/app.js:77-81 | The sort moves a name after another exactly when the Node comparator `indexA - indexB` is a positive number, `NaN` counting as not positive. When both keys are present, this is also exactly when Java's `Integer.compare` is positive. |
| StableSort.SortIsStableSort | ddxc-demo/node-service/app.js:77-81 | The write order is a permutation of the listing, ascending when every name has a key, and it keeps the listing order among the names of each key. |
| StableSort.SortIsStable | ddxc-demo/java-service/src/main/java/com/example/javaservice/FileService.java:56-60 | For every key, the names carrying it keep their listing order: ties are not reordered. |
| StableSort.SortedPermutationUnique | ddxc-demo/node-service/app.js:77-81 | A sorted sequence that is a permutation of a strictly sorted one is equal to it. |
| StableSort.SortOfPermutation | ddxc-demo/node-service/app.js:76-81 | When no two names share an index, every listing order sorts to the same sequence. |
| Common.AppendEach | ddxc-demo/web/index.js:61-64 | After `spark.append` of each hash in turn, the digest has been fed what it held before followed by exactly those hashes, in order. |
| Common.CombinedHash | ddxc-demo/node-service/app.js:134-142 | The combined hash of a fresh digest that appends each hash and then ends is the digest of exactly that sequence of hashes. |
| Sessions.SessionNodeKeys | ddxc-demo/node-service/app.js:77-80 | The Node merge sorts session name `i` under `i`, whatever hashes the names carry. |
| Sessions.SessionJavaKeys | ddxc-demo/java-service/src/main/java/com/example/javaservice/FileUploadController.java:68-72 | The Java merges sort session name `i` under `i`, for up to 2^31 chunks. |
| Sessions.SessionNameHashes | ddxc-demo/node-service/app.js:93 | When no hash contains '_', session name `i` carries `hashes[i]` as its second segment. |
| Sessions.DistinctMultiset | ddxc-demo/node-service/app.js:76 | A listing without repeats has the same multiset as its set of names. |
| Sessions.SessionListing | ddxc-demo/node-service/app.js:76 | A complete session's names, in index order, are strictly ascending by key and hold the same names as the directory, each once. |
| Sessions.SessionOrder | ddxc-demo/node-service/app.js:76-90 | Any listing of a complete session sorts into index order, and reading the chunks in that order gives the chunks in index order. |
| Client.FindListed | ddxc-demo/web/index.js:29 | `find` returns the first listed entry carrying the index, or nothing exactly when no entry carries it. |
| Client.PlannedHash | ddxc-demo/web/index.js:29-43 | A listed index takes the hash of the first listed entry carrying that index. An unlisted index takes what its worker posts back, `undefined` when the worker fails. |
| Client.CompletedAmong | ddxc-demo/web/index.js:26-46 | The completion count over the first `k` chunks reaches `k` exactly when each of them was reused or hashed. |
| Client.HashChunks | ddxc-demo/web/index.js:24-56 | A listed index takes the server's hash, and no worker is spawned for it. Every other index gets its worker's result, so a failed worker leaves `undefined`. Upload-and-merge starts exactly once when every slot completes, and never otherwise. |
| Client.PlannedHashes | ddxc-demo/web/index.js:28-43 | `results[i]` is the listed hash for a listed index and the worker's hash otherwise. |
| Client.UploadsFrom | ddxc-demo/web/index.js:71-75 | An upload is sent exactly for each index the listing lacks, carrying that index, `results[i]` (or "undefined") and chunk `i`. |
| Client.FieldText | ddxc-demo/web/index.js:102-104 | A form field carries a present hash as it is. The text is "undefined" exactly when the hash is missing or is itself the text "undefined". |
| Client.UploadOf | ddxc-demo/web/index.js:98-104 | The upload of chunk `i` carries the file name, chunk `i` and `results[i]` as text, and a non-empty '_'-free index text. |
| Client.UploadIndexReadsBack | ddxc-demo/web/index.js:102 | The server's `parseInt` reads the index field of chunk `i`'s upload back as `i`. |
| Client.ClientRun | ddxc-demo/web/index.js:60-90 | The run proceeds exactly when every chunk completed. `results` is then the planned hash of each index, and the uploads are exactly those for the indices the second listing lacks. The merge is requested exactly when every one of those uploads was delivered, with the combination of `results` in index order. |
| NodeService.ExistingChunks | ddxc-demo/node-service/app.js:20-32 | A missing directory lists as empty. Otherwise there is one decoded `{index, hash}` per stored name, in listing order, and the store is not changed. |
| NodeService.MergeOrder | ddxc-demo/node-service/app.js:77-81 | The write order is the listing stably sorted by `parseInt` of the first segment: a permutation of it, ascending when every name has a key, with ties in listing order. |
| NodeService.MergedBytes | ddxc-demo/node-service/app.js:87-91 | The merged bytes are the stored chunks of a stable sort of the listing, appended in that order. |
| NodeService.NameHashes | ddxc-demo/node-service/app.js:92-96 | There is one collected hash per name, in write order, and each is that name's `split('_')[1]`. |
| NodeService.NameCombinedHash | ddxc-demo/node-service/app.js:104-106 | The recomputed hash is the combination of the hashes the names carry, taken in a stable sort of the listing. |
| NodeService.ListedAfterUpload | ddxc-demo/node-service/app.js:27-30 | A chunk uploaded with index `n` and a '_'-free hash `h` appears in the next listing as `{index: n, hash: h}`. |
| NodeService.Upload | ddxc-demo/node-service/app.js:35-64 | The bytes are stored under `index_hash` in a created-if-missing directory, and they are not checked against the hash. An existing name keeps its bytes with 200 "Chunk already exists". Nothing else in the store changes. |
| NodeService.UploadIdempotent | ddxc-demo/node-service/app.js:43-46 | Repeating an upload changes nothing and replies "Chunk already exists". |
| NodeService.Merge | ddxc-demo/node-service/app.js:67-123 | A missing directory gives 400 "No chunks found" with no change. Otherwise every chunk and the directory are removed. The merged file is the chunks in sorted order and is kept with 200 and the hash exactly when the name-hash combination equals `combinedHash`. Otherwise it is deleted with 400 "Invalid combined hash". |
| NodeService.CompleteSessionBytes | ddxc-demo/node-service/app.js:76-90 | A complete session in any listing order is written in index order, so the merged bytes are the chunks appended. This holds whatever hashes the names carry. |
| NodeService.CompleteSessionHashes | ddxc-demo/node-service/app.js:93-96 | When no hash contains '_', the hashes a complete session's names carry, in write order, are the client's `results`. |
| NodeService.MergeOfCompleteSession | ddxc-demo/node-service/app.js:67-123 | A directory holding exactly the client's `i_results[i]` names, with no `results[i]` containing '_', passes exactly when `combinedHash` is the client's combination. It then stores the chunks appended, and the chunk directory is gone either way. |
| NodeService.MergeReplyIgnoresBytes | ddxc-demo/node-service/app.js:103-116 | The merge reply depends only on the chunk names: two directories with the same names but different bytes get the same reply. |
| JavaController.Upload | ddxc-demo/java-service/src/main/java/com/example/javaservice/FileUploadController.java:28-44 | The bytes are stored under `Integer.toString(index)_hash`, unless that name exists, which replies "Chunk already exists" and writes nothing. Nothing else in the store changes. |
| JavaController.UploadIdempotent | ddxc-demo/java-service/src/main/java/com/example/javaservice/FileUploadController.java:36-39 | Repeating an upload changes nothing and replies "Chunk already exists". |
| JavaController.MergeOrder | ddxc-demo/java-service/src/main/java/com/example/javaservice/FileUploadController.java:64-72 | The copy order is the listing stably sorted by `Integer.parseInt` of the first segment: a permutation of it, ascending when every name has an `int` key, with ties in listing order. |
| JavaController.MergedBytes | ddxc-demo/java-service/src/main/java/com/example/javaservice/FileUploadController.java:78-83 | The merged file's bytes are the stored chunks of a stable sort of the listing, copied in that order. |
| JavaController.Merge | ddxc-demo/java-service/src/main/java/com/example/javaservice/FileUploadController.java:46-96 | A missing directory replies "No chunks found" with no change. With two or more names and one unparsable index the sort throws and nothing changes. Otherwise chunks and directory are removed, and the merged file is kept exactly when the hash of its bytes is `combinedHash`; its reply is "File merged successfully" or "Combined hash mismatch". |
| JavaController.MergeOfCompleteSession | ddxc-demo/java-service/src/main/java/com/example/javaservice/FileUploadController.java:64-94 | A complete session merges, in any listing order, into the chunks appended. It succeeds exactly when `combinedHash` is the hash of those bytes, whatever hashes the names carry. |
| JavaController.SortThrows | ddxc-demo/java-service/src/main/java/com/example/javaservice/FileUploadController.java:68-72 | The comparator sort throws exactly when the listing could not be put into ascending `int` order: two or more names, one of them without an `int` prefix. |
| JavaController.UnkeyedBreaksOrder | ddxc-demo/java-service/src/main/java/com/example/javaservice/FileUploadController.java:68-72 | Two or more names, one of them without an `int` prefix, never sort into ascending order. |
| JavaController.KeyedSortsInOrder | ddxc-demo/java-service/src/main/java/com/example/javaservice/FileUploadController.java:68-72 | A single name, or names that all have an `int` prefix, sort into ascending order. |
| JavaController.UnparsableNameThrows | ddxc-demo/java-service/src/main/java/com/example/javaservice/FileUploadController.java:68-72 | With two or more chunks, one name anywhere in the listing whose prefix is not an `int` makes the merge throw before anything is written. |
| JavaController.ExistingChunks | ddxc-demo/java-service/src/main/java/com/example/javaservice/FileUploadController.java:98-113 | A missing directory lists as empty. A name without '_' makes the listing throw. Otherwise each entry is its name's '_'-free text before the first '_', one per stored name. |
| JavaController.ListedAfterUpload | ddxc-demo/java-service/src/main/java/com/example/javaservice/FileUploadController.java:106-110 | A chunk uploaded with `int` index `i` is listed by the text of `i` whenever the listing does not throw. |
| JavaController.ExistingFile | ddxc-demo/java-service/src/main/java/com/example/javaservice/FileUploadController.java:115-127 | The lookup returns "" when no merged file exists, and the hash of its bytes otherwise. |
| JavaController.ExistingFileAfterMerge | ddxc-demo/java-service/src/main/java/com/example/javaservice/FileUploadController.java:115-127 | After a merge that replies "File merged successfully", the lookup returns exactly the `combinedHash` that merge accepted. |
| FileService.SaveChunk | ddxc-demo/java-service/src/main/java/com/example/javaservice/FileService.java:21-28 | The bytes are stored under `index_hash` in a created-if-missing directory, replacing what the name held. Nothing else in the store changes. |
| FileService.SaveChunkLastWriteWins | ddxc-demo/java-service/src/main/java/com/example/javaservice/FileService.java:26-27 | Saving twice equals saving the second bytes once, while the controller's upload keeps what was stored first. |
| FileService.ExistingChunks | ddxc-demo/java-service/src/main/java/com/example/javaservice/FileService.java:30-43 | The listing holds each stored name exactly once, and nothing when the directory is missing. |
| FileService.ListedAfterSave | ddxc-demo/java-service/src/main/java/com/example/javaservice/FileService.java:38-40 | A saved chunk's `index_hash` name appears in the next listing. |
| FileService.MergeChunks | ddxc-demo/java-service/src/main/java/com/example/javaservice/FileService.java:45-80 | A missing directory throws "No chunks found", and an unparsable index among two or more throws; neither changes anything. Otherwise the chunks are deleted. On a hash match the directory is removed and the merged file kept. On a mismatch the merged file is deleted, the empty directory stays, and the call throws "Combined hash does not match". |
| FileService.MergeChunksOfCompleteSession | ddxc-demo/java-service/src/main/java/com/example/javaservice/FileService.java:56-79 | A complete session succeeds exactly when `combinedHash` is the hash of the chunks appended. After a failure its directory remains, empty. |
| EndToEnd.SessionNamesDecode | ddxc-demo/node-service/app.js:27-30 | With '_'-free hashes, distinct indices give distinct session names, and each lists back as its own index and hash. |
| EndToEnd.ListingEntry | ddxc-demo/node-service/app.js:27-30 | Each listed entry of an interrupted run's directory is some index's own `{index, hash}`. |
| EndToEnd.ListedIsStored | ddxc-demo/web/index.js:29-32 | An entry reporting index `i` carries chunk `i`'s hash, and chunk `i` is stored. |
| EndToEnd.StoredIsListed | ddxc-demo/web/index.js:72 | A stored chunk `i` makes the listing report index `i`. |
| EndToEnd.ListedIffStored | ddxc-demo/web/index.js:29-32 | The client treats index `i` as present exactly when chunk `i` is stored, and then takes the hash it was stored under. |
| EndToEnd.ResultsOfPartialSession | ddxc-demo/web/index.js:28-46 | With workers that never fail every chunk completes, and `results` holds each chunk's own hash, reused or fresh. |
| EndToEnd.PartialHoldingAllIsComplete | ddxc-demo/node-service/app.js:76-90 | A directory of the file's own chunks that holds every index holds exactly one chunk per index. |
| EndToEnd.UploadExtendsSession | ddxc-demo/node-service/app.js:57-61 | Uploading a missing chunk adds exactly its session name, with its bytes. |
| EndToEnd.SkipStep | ddxc-demo/web/index.js:71-75 | An index the listing reports gets no upload, and the upload loop's invariant moves on to the next index. |
| EndToEnd.UploadStep | ddxc-demo/web/index.js:71-76 | Handling the upload of the next missing index advances the upload loop's invariant by one index. |
| EndToEnd.UploadsComplete | ddxc-demo/web/index.js:71-76 | Handling the client's uploads in order leaves exactly one chunk per index. |
| EndToEnd.ResumedRunMerges | ddxc-demo/web/index.js:14-90 | Whatever chunks an interrupted run left, and for a `hash` whose output never contains '_' (as MD5 hex never does), a client whose workers do not fail requests the merge once its uploads are delivered. The Node merge of any listing then replies 200 and stores the original file. |
| EndToEnd.FreshUploadMerges | ddxc-demo/node-service/app.js:67-123 | For a `hash` whose output never contains '_' (as MD5 hex never does), a file the server has never seen is uploaded and merged with 200, and the merged file equals the original bytes. |

## Left out

- MD5 itself (worker.js, SparkMD5, `DigestUtils`) is not modelled; `hash`, `combine` and `worker` are parameters. Nothing is assumed about how SparkMD5's `append` treats strings.
- `getFileMd5` (web/index.js:124-155) is not modelled: it is unused and driven by `FileReader` callbacks.
- Transport and UI are not modelled: Express, multer, Spring, CORS, `fetch`, the DOM writes, and the multer temporary file. Only the request fields and reply values are kept.
- Concurrency is not modelled: workers, `Promise.all` and the write stream's `finish`/`error` events run sequentially in the model. The 500 reply on a stream error is not modelled.
- I/O failures are not modelled: disk errors, partial merges, a `listFiles` that returns null for an existing directory, and the 500 replies are outside the model.
- The Java `main` method (FileUploadController.java:130-143) is debugging code and is not modelled.
- File names are opaque keys; path traversal and sanitisation are not modelled, as the code does none.
- The wire mismatch between the services is not modelled: the client is modelled against the Node reply shape only. The Java listing returns index strings, which `chunk.index === i` never matches. The client's combined hash is not the MD5 of the file that the Java merges compare against.
- Missing or malformed request fields (for example no `chunk` part) are not modelled.
- StableSort.InsertionSort: when some name has no numeric prefix, JavaScript's comparator returns `NaN` and the resulting order is engine-defined. The model fixes the insertion-sort order, which treats `NaN` as "not after".
- ChunkKey.JsParseInt: values are unbounded integers; the rounding of numbers beyond 2^53 is not modelled.
- Partition.ChunkSize: exact integer ceiling; floating-point `Math.ceil(size / cores)` agrees only while sizes stay below 2^53.
- ChunkKey.JavaParseInt: ASCII digits only; `Integer.parseInt` also accepts other Unicode decimal digits.
- ChunkKey.JavaKey: a name of underscores only makes Java's `split("_")[0]` throw ArrayIndexOutOfBoundsException; the model reports it as the NumberFormatException of its empty first segment.

=== FILE: chunk_key.dfy ===
/** Chunk file names `index_hash`: how both services build them and how they read
    the index and the hash back out of a directory entry. */
module ChunkKey {
  import opened Common

  // ---------------------------------------------------------------------------
  // Encoding
  // ---------------------------------------------------------------------------

  predicate IsDigit(c: char) {
    '0' <= c <= '9'
  }

  predicate AllDigits(s: string) {
    forall i :: 0 <= i < |s| ==> IsDigit(s[i])
  }

  function DigitChar(d: nat): (c: char)
    requires d < 10
    ensures IsDigit(c)
  {
    (('0' as int) + d) as char
  }

  /** The decimal text of a non-negative number, as JavaScript's `String(n)` and
      Java's `Integer.toString` write it: no sign, no leading zeros. */
  function NatToDecimal(n: nat): (s: string)
    ensures |s| > 0 && AllDigits(s)
    ensures n == 0 ==> s == "0"
    ensures n > 0 ==> s[0] != '0'
    decreases n
  {
    if n < 10 then [DigitChar(n)] else NatToDecimal(n / 10) + [DigitChar(n % 10)]
  }

  /** Java's `Integer.toString` of an `int`, with the minus sign of negative values. */
  function IntToDecimal(n: int): (s: string)
    ensures |s| > 0 && (s[0] == '-' <==> n < 0) && '_' !in s
    ensures var digits := if n < 0 then s[1..] else s;
      && |digits| > 0 && AllDigits(digits)
      && (|digits| > 1 ==> digits[0] != '0')
  {
    if n < 0 then "-" + NatToDecimal(-n) else NatToDecimal(n)
  }

  /** The chunk file name `${index}_${chunkHash}` used by every upload path. */
  function ChunkName(index: string, chunkHash: string): (name: string)
    ensures |name| == |index| + 1 + |chunkHash| && name[|index|] == '_'
  {
    index + "_" + chunkHash
  }

  // ---------------------------------------------------------------------------
  // Splitting on '_'
  // ---------------------------------------------------------------------------

  /** The position of the first '_' in `s`, if any (`indexOf("_")`). */
  function FindUnderscore(s: string): (r: Option<nat>)
    ensures r.Some? ==> r.value < |s| && s[r.value] == '_' && '_' !in s[..r.value]
    ensures r.None? ==> '_' !in s
  {
    if |s| == 0 then None
    else if s[0] == '_' then Some(0)
    else match FindUnderscore(s[1..])
      case None => None
      case Some(k) => Some(k + 1)
  }

  /** `name.split('_')[0]`: the text before the first '_', or all of `name`. */
  function FirstSegment(name: string): (r: string)
    ensures |r| <= |name| && r == name[..|r|] && '_' !in r
    ensures |r| < |name| ==> name[|r|] == '_'
  {
    match FindUnderscore(name)
    case None => name
    case Some(k) => name[..k]
  }

  /** JavaScript's `name.split('_')[1]`: the text between the first and the second
      '_', or `undefined` when `name` has no '_'. */
  function SecondSegment(name: string): (r: Option<string>)
    ensures r.None? <==> '_' !in name
    ensures r.Some? ==>
      var k := |FirstSegment(name)|;
      var e := k + 1 + |r.value|;
      && e <= |name| && name[k + 1..e] == r.value && '_' !in r.value
      && (e < |name| ==> name[e] == '_')
  {
    match FindUnderscore(name)
    case None => None
    case Some(k) =>
      var rest := name[k + 1..];
      Some(FirstSegment(rest))
  }

  lemma SegmentsOfChunkName(index: string, chunkHash: string)
    requires '_' !in index
    ensures FindUnderscore(ChunkName(index, chunkHash)) == Some(|index|)
    ensures FirstSegment(ChunkName(index, chunkHash)) == index
    ensures ChunkName(index, chunkHash)[|index| + 1..] == chunkHash
  {
    var name := ChunkName(index, chunkHash);
    assert name[..|index|] == index;
    assert name[|index|] == '_';
  }

  /** A name built by `ChunkName` splits back into its index and its hash,
      as long as neither part contains '_'. */
  lemma {:induction false} ChunkNameSegments(index: string, chunkHash: string)
    requires '_' !in index && '_' !in chunkHash
    ensures FirstSegment(ChunkName(index, chunkHash)) == index
    ensures SecondSegment(ChunkName(index, chunkHash)) == Some(chunkHash)
  {
    SegmentsOfChunkName(index, chunkHash);
  }

  /** A hash that itself contains '_' does not survive the round trip: only its
      text up to its first '_' comes back. */
  lemma UnderscoreHashIsTruncated(index: string, chunkHash: string)
    requires '_' !in index && '_' in chunkHash
    ensures FindUnderscore(chunkHash).Some?
    ensures SecondSegment(ChunkName(index, chunkHash)) == Some(chunkHash[..FindUnderscore(chunkHash).value])
    ensures SecondSegment(ChunkName(index, chunkHash)) != Some(chunkHash)
  {
    SegmentsOfChunkName(index, chunkHash);
  }

  // ---------------------------------------------------------------------------
  // JavaScript parseInt(s) (no radix argument)
  // ---------------------------------------------------------------------------

  /** The characters parseInt strips from the front: white space and line terminators. */
  predicate IsJsWhiteSpace(c: char) {
    || c == '\t' || c == '\U{000B}' || c == '\U{000C}' || c == ' ' || c == '\U{00A0}'
    || c == '\U{FEFF}' || c == '\n' || c == '\r' || c == '\U{2028}' || c == '\U{2029}'
    || c == '\U{1680}' || ('\U{2000}' <= c <= '\U{200A}')
    || c == '\U{202F}' || c == '\U{205F}' || c == '\U{3000}'
  }

  function TrimStart(s: string): (r: string)
    ensures |r| <= |s| && r == s[|s| - |r|..]
    ensures |r| > 0 ==> !IsJsWhiteSpace(r[0])
    ensures forall i :: 0 <= i < |s| - |r| ==> IsJsWhiteSpace(s[i])
  {
    if |s| > 0 && IsJsWhiteSpace(s[0]) then TrimStart(s[1..]) else s
  }

  /** The value of `c` as a digit in `radix` (10 or 16), if it is one. */
  function DigitValue(c: char, radix: nat): (r: Option<nat>)
    ensures r.Some? ==> r.value < radix
  {
    if '0' <= c <= '9' && (c as int) - ('0' as int) < radix then Some((c as int) - ('0' as int))
    else if radix == 16 && 'a' <= c <= 'f' then Some((c as int) - ('a' as int) + 10)
    else if radix == 16 && 'A' <= c <= 'F' then Some((c as int) - ('A' as int) + 10)
    else None
  }

  predicate AllDigitsIn(s: string, radix: nat) {
    forall i :: 0 <= i < |s| ==> DigitValue(s[i], radix).Some?
  }

  /** The longest prefix of `s` made of digits of `radix`. */
  function LeadingDigits(s: string, radix: nat): (r: string)
    ensures |r| <= |s| && r == s[..|r|] && AllDigitsIn(r, radix)
    ensures |r| < |s| ==> DigitValue(s[|r|], radix).None?
  {
    if |s| > 0 && DigitValue(s[0], radix).Some? then [s[0]] + LeadingDigits(s[1..], radix) else []
  }

  /** A run of digits is read exactly when the text starts with a digit. */
  lemma LeadingDigitsStart(s: string, radix: nat)
    ensures |LeadingDigits(s, radix)| > 0 <==> |s| > 0 && DigitValue(s[0], radix).Some?
  {
  }

  /** The number a digit string denotes, most significant digit first. */
  function DigitsValue(ds: string, radix: nat): nat
    requires AllDigitsIn(ds, radix)
  {
    if |ds| == 0 then 0
    else DigitsValue(ds[..|ds| - 1], radix) * radix + DigitValue(ds[|ds| - 1], radix).value
  }

  /** `parseInt(s)`: skip leading white space, read an optional sign, switch to
      base 16 after `0x`/`0X`, then read the longest run of digits; `None` is `NaN`. */
  function JsParseInt(s: string): (r: Option<int>)
    ensures r.Some? ==> |TrimStart(s)| > 0
    ensures r.Some? && r.value < 0 ==> TrimStart(s)[0] == '-'
    ensures (&& |TrimStart(s)| > 0 && TrimStart(s)[0] != '-' && TrimStart(s)[0] != '+'
             && DigitValue(TrimStart(s)[0], 10).None?) ==> r.None?
    ensures (&& |TrimStart(s)| > 0 && DigitValue(TrimStart(s)[0], 10).Some?
             && !(|TrimStart(s)| >= 2 && TrimStart(s)[0] == '0' && (TrimStart(s)[1] == 'x' || TrimStart(s)[1] == 'X')))
            ==> r.Some? && r.value >= 0
    ensures (&& |TrimStart(s)| >= 3 && TrimStart(s)[0] == '0' && (TrimStart(s)[1] == 'x' || TrimStart(s)[1] == 'X')
             && DigitValue(TrimStart(s)[2], 16).Some?)
            ==> r.Some? && r.value >= 0
    ensures (&& |TrimStart(s)| >= 2 && TrimStart(s)[0] == '0' && (TrimStart(s)[1] == 'x' || TrimStart(s)[1] == 'X')
             && (|TrimStart(s)| == 2 || DigitValue(TrimStart(s)[2], 16).None?))
            ==> r.None?
  {
    var t := TrimStart(s);
    var negative := |t| > 0 && t[0] == '-';
    var u := if |t| > 0 && (t[0] == '-' || t[0] == '+') then t[1..] else t;
    var hex := |u| >= 2 && u[0] == '0' && (u[1] == 'x' || u[1] == 'X');
    var radix := if hex then 16 else 10;
    var ds := LeadingDigits(if hex then u[2..] else u, radix);
    LeadingDigitsStart(if hex then u[2..] else u, radix);
    if |ds| == 0 then None
    else
      var magnitude: int := DigitsValue(ds, radix);
      Some(if negative then -magnitude else magnitude)
  }

  // ---------------------------------------------------------------------------
  // Java Integer.parseInt(s)
  // ---------------------------------------------------------------------------

  const MinInt32: int := -0x8000_0000
  const MaxInt32: int := 0x7FFF_FFFF

  /** `Integer.parseInt(s)`: an optional sign and at least one decimal digit, the
      whole string, within the range of `int`; `None` is NumberFormatException. */
  function JavaParseInt(s: string): (r: Option<int>)
    ensures r.Some? ==> MinInt32 <= r.value <= MaxInt32
    ensures r.Some? ==> |s| > 0 && (s[0] == '-' || s[0] == '+' || DigitValue(s[0], 10).Some?)
    ensures r.Some? ==> forall i :: 1 <= i < |s| ==> DigitValue(s[i], 10).Some?
    ensures r.Some? && r.value < 0 ==> s[0] == '-'
    ensures r.Some? ==> DigitValue(s[0], 10).Some? || (|s| >= 2 && DigitValue(s[1], 10).Some?)
  {
    if |s| == 0 then None
    else
      var body := if s[0] == '-' || s[0] == '+' then s[1..] else s;
      if |body| == 0 || !AllDigitsIn(body, 10) then None
      else
        var magnitude: int := DigitsValue(body, 10);
        var v := if s[0] == '-' then -magnitude else magnitude;
        if MinInt32 <= v <= MaxInt32 then Some(v) else None
  }

  // ---------------------------------------------------------------------------
  // What the services read back from a name
  // ---------------------------------------------------------------------------

  /** One element of the Node `existingChunks` reply: `{index: parseInt(index), hash}`. */
  datatype ListedChunk = ListedChunk(index: Option<int>, hash: Option<string>)

  /** The Node service's decoding of a chunk name: `const [index, hash] = name.split('_')`. */
  function NodeDecode(name: string): (c: ListedChunk)
    ensures c.hash.None? <==> '_' !in name
    ensures c.hash.Some? ==> '_' !in c.hash.value
    ensures '_' !in name ==> c.index == JsParseInt(name)
  {
    ListedChunk(JsParseInt(FirstSegment(name)), SecondSegment(name))
  }

  /** The Node merge's sort key `parseInt(name.split('_')[0])`. */
  function NodeKey(name: string): (r: Option<int>)
    ensures |name| > 0 && name[0] == '_' ==> r.None?
    ensures '_' !in name ==> r == JsParseInt(name)
  {
    NodeDecode(name).index
  }

  /** The Java merge's sort key `Integer.parseInt(name.split("_")[0])`. A name of
      underscores only splits into nothing, which Java reports as an
      out-of-bounds index; its empty first segment fails to parse here. */
  function JavaKey(name: string): (r: Option<int>)
    ensures r.Some? ==> MinInt32 <= r.value <= MaxInt32
    ensures |name| > 0 && name[0] == '_' ==> r.None?
    ensures '_' !in name ==> r == JavaParseInt(name)
  {
    JavaParseInt(FirstSegment(name))
  }

  // ---------------------------------------------------------------------------
  // Round trips
  // ---------------------------------------------------------------------------

  lemma DecimalDigitsAreDigits(s: string)
    requires AllDigits(s)
    ensures AllDigitsIn(s, 10)
    ensures '_' !in s && '-' !in s
    ensures |s| > 0 ==> !IsJsWhiteSpace(s[0]) && s[0] != '+'
  {
    forall i | 0 <= i < |s|
      ensures s[i] != '_' && s[i] != '-'
    {
    }
  }

  /** Reading the decimal text of `n` gives back `n`. */
  lemma {:induction false} DecimalRoundTrip(n: nat)
    ensures AllDigitsIn(NatToDecimal(n), 10)
    ensures DigitsValue(NatToDecimal(n), 10) == n
    decreases n
  {
    var s := NatToDecimal(n);
    DecimalDigitsAreDigits(s);
    if n >= 10 {
      var p := NatToDecimal(n / 10);
      DecimalRoundTrip(n / 10);
      assert s[..|s| - 1] == p;
    }
  }

  /** A run of decimal digits is read whole. */
  lemma {:induction false} LeadingDigitsOfDigits(ds: string)
    requires AllDigits(ds)
    ensures LeadingDigits(ds, 10) == ds
    decreases |ds|
  {
    if |ds| > 0 {
      LeadingDigitsOfDigits(ds[1..]);
      assert ds == [ds[0]] + ds[1..];
    }
  }

  lemma TrimStartOfDigits(d: string)
    requires |d| > 0 && IsDigit(d[0])
    ensures TrimStart(d) == d
  {
    assert !IsJsWhiteSpace(d[0]);
  }

  /** `parseInt` reads a run of decimal digits as the number it denotes. */
  lemma JsParseIntOfDigits(d: string)
    requires |d| > 0 && AllDigits(d)
    ensures AllDigitsIn(d, 10)
    ensures JsParseInt(d) == Some(DigitsValue(d, 10))
  {
    DecimalDigitsAreDigits(d);
    TrimStartOfDigits(d);
    var hex := |d| >= 2 && d[0] == '0' && (d[1] == 'x' || d[1] == 'X');
    assert !hex by {
      if |d| >= 2 { assert IsDigit(d[1]); }
    }
    LeadingDigitsOfDigits(d);
  }

  /** `parseInt` reads the decimal text of `n` as `n`. */
  lemma JsParseIntOfDecimal(n: nat)
    ensures JsParseInt(NatToDecimal(n)) == Some(n)
  {
    JsParseIntOfDigits(NatToDecimal(n));
    DecimalRoundTrip(n);
  }

  /** The Node listing decodes an uploaded name `n_h` back into index `n` and hash `h`. */
  lemma NodeDecodeRoundTrip(n: nat, chunkHash: string)
    requires '_' !in chunkHash
    ensures NodeDecode(ChunkName(NatToDecimal(n), chunkHash)) == ListedChunk(Some(n), Some(chunkHash))
  {
    var d := NatToDecimal(n);
    DecimalDigitsAreDigits(d);
    ChunkNameSegments(d, chunkHash);
    JsParseIntOfDecimal(n);
  }

  /** The Node merge sorts an uploaded name `n_h` under index `n`, whatever the
      hash: the key reads only the text before the first '_'. */
  lemma NodeKeyRoundTrip(n: nat, chunkHash: string)
    ensures NodeKey(ChunkName(NatToDecimal(n), chunkHash)) == Some(n)
  {
    var d := NatToDecimal(n);
    DecimalDigitsAreDigits(d);
    SegmentsOfChunkName(d, chunkHash);
    JsParseIntOfDecimal(n);
  }

  /** `Integer.parseInt` reads the text `Integer.toString(i)` back as `i`. */
  lemma JavaParseIntOfDecimal(i: int32)
    ensures '_' !in IntToDecimal(i as int)
    ensures JavaParseInt(IntToDecimal(i as int)) == Some(i as int)
  {
    var n: nat := if i < 0 then -(i as int) else i as int;
    var d := NatToDecimal(n);
    DecimalDigitsAreDigits(d);
    DecimalRoundTrip(n);
    if i < 0 {
      var idx := IntToDecimal(i as int);
      assert idx == "-" + d;
      assert idx[1..] == d;
      assert '_' !in idx by {
        forall k | 0 <= k < |idx|
          ensures idx[k] != '_'
        {
          if k > 0 { assert idx[k] == d[k - 1]; }
        }
      }
    }
  }

  /** The Java merge sorts a name written for `int` index `i` under `i`. */
  lemma JavaKeyRoundTrip(i: int32, chunkHash: string)
    ensures JavaKey(ChunkName(IntToDecimal(i as int), chunkHash)) == Some(i as int)
  {
    JavaParseIntOfDecimal(i);
    SegmentsOfChunkName(IntToDecimal(i as int), chunkHash);
  }
}

=== FILE: client.dfy ===
/** The browser client (web/index.js): resume-aware hashing of the chunks, the
    combined hash, the uploads of the chunks the server lacks, and the merge
    request issued once every upload has gone through. */
module Client {
  import opened Common
  import opened ChunkKey
  import opened Partition

  // ---------------------------------------------------------------------------
  // Resume: which chunks the server already holds
  // ---------------------------------------------------------------------------

  /** `existingChunks.some(chunk => chunk.index === i)`. */
  predicate Listed(existing: seq<ListedChunk>, i: int) {
    exists c :: c in existing && c.index == Some(i)
  }

  /** `existingChunks.find(chunk => chunk.index === i)`: the first entry, in
      listing order, that carries index `i`. */
  function FindListed(existing: seq<ListedChunk>, i: int): (r: Option<ListedChunk>)
    ensures r.None? <==> !Listed(existing, i)
    ensures r.Some? ==> exists k :: 0 <= k < |existing| && existing[k] == r.value
                                  && r.value.index == Some(i) && !Listed(existing[..k], i)
  {
    if |existing| == 0 then None
    else if existing[0].index == Some(i) then
      assert existing[..0] == [];
      Some(existing[0])
    else
      var r := FindListed(existing[1..], i);
      assert existing == [existing[0]] + existing[1..];
      if r.Some? then
        var k :| 0 <= k < |existing[1..]| && existing[1..][k] == r.value
                 && r.value.index == Some(i) && !Listed(existing[1..][..k], i);
        assert existing[..k + 1] == [existing[0]] + existing[1..][..k];
        r
      else
        r
  }

  /** The hash the client records for chunk `i`: the server's recorded hash when
      the server lists index `i`, otherwise what the worker posts back (`None`
      when the worker fails: the slot stays `undefined`). */
  function PlannedHash(existing: seq<ListedChunk>, worker: Bytes -> Option<string>, chunk: Bytes, i: nat): (h: Option<string>)
    ensures Listed(existing, i) ==>
      exists k :: 0 <= k < |existing| && existing[k].index == Some(i) && !Listed(existing[..k], i) && h == existing[k].hash
    ensures !Listed(existing, i) ==> h == worker(chunk)
  {
    match FindListed(existing, i)
    case Some(c) => c.hash
    case None => worker(chunk)
  }

  /** Chunk `i` counts as completed: reused from the listing, or hashed by its worker. */
  predicate Completes(existing: seq<ListedChunk>, worker: Bytes -> Option<string>, chunks: seq<Bytes>, i: nat)
    requires i < |chunks|
  {
    Listed(existing, i) || worker(chunks[i]).Some?
  }

  predicate AllComplete(existing: seq<ListedChunk>, worker: Bytes -> Option<string>, chunks: seq<Bytes>) {
    forall i :: 0 <= i < |chunks| ==> Completes(existing, worker, chunks, i)
  }

  /** How many of the first `k` chunks complete: the final value of `completed`
      when only those chunks have been handled. */
  function CompletedAmong(existing: seq<ListedChunk>, worker: Bytes -> Option<string>, chunks: seq<Bytes>, k: nat): (n: nat)
    requires k <= |chunks|
    ensures n <= k
    ensures n == k <==> forall i :: 0 <= i < k ==> Completes(existing, worker, chunks, i)
  {
    if k == 0 then 0
    else
      CompletedAmong(existing, worker, chunks, k - 1)
        + (if Completes(existing, worker, chunks, k - 1) then 1 else 0)
  }

  /** The hashing loop of `showPath`, run one chunk at a time. `spawned` lists the
      indices handed to a worker, `completed` is the completion counter and
      `proceeded` counts how often the `completed === numCores` test fires and
      starts upload-and-merge. */
  method HashChunks(chunks: seq<Bytes>, existing: seq<ListedChunk>, worker: Bytes -> Option<string>)
    returns (results: seq<Option<string>>, spawned: seq<nat>, completed: nat, proceeded: nat)
    requires |chunks| > 0
    ensures |results| == |chunks|
    ensures forall i :: 0 <= i < |chunks| ==> results[i] == PlannedHash(existing, worker, chunks[i], i)
    ensures forall i :: i in spawned <==> 0 <= i < |chunks| && !Listed(existing, i)
    ensures completed == |chunks| <==> AllComplete(existing, worker, chunks)
    ensures proceeded == if AllComplete(existing, worker, chunks) then 1 else 0
  {
    var numCores := |chunks|;
    results := seq(numCores, _ => None);
    spawned := [];
    completed := 0;
    proceeded := 0;
    for index := 0 to numCores
      invariant |results| == numCores
      invariant forall i :: 0 <= i < index ==> results[i] == PlannedHash(existing, worker, chunks[i], i)
      invariant forall i :: index <= i < numCores ==> results[i] == None
      invariant forall i :: i in spawned <==> 0 <= i < index && !Listed(existing, i)
      invariant completed == CompletedAmong(existing, worker, chunks, index)
      invariant proceeded == if completed == numCores then 1 else 0
    {
      var existingChunk := FindListed(existing, index);
      if existingChunk.Some? {
        results := results[index := existingChunk.value.hash];
        completed := completed + 1;
        if completed == numCores {
          proceeded := proceeded + 1;
        }
        continue;
      }
      spawned := spawned + [index];
      var posted := worker(chunks[index]);
      if posted.Some? {
        results := results[index := posted];
        completed := completed + 1;
        if completed == numCores {
          proceeded := proceeded + 1;
        }
      }
    }
  }

  /** The `results` array once every chunk has completed. */
  function PlannedHashes(existing: seq<ListedChunk>, worker: Bytes -> Option<string>, chunks: seq<Bytes>): (results: seq<Option<string>>)
    ensures |results| == |chunks|
    ensures forall i :: 0 <= i < |chunks| && Listed(existing, i) ==> results[i] == FindListed(existing, i).value.hash
    ensures forall i :: 0 <= i < |chunks| && !Listed(existing, i) ==> results[i] == worker(chunks[i])
  {
    seq(|chunks|, i requires 0 <= i < |chunks| => PlannedHash(existing, worker, chunks[i], i))
  }

  // ---------------------------------------------------------------------------
  // Uploads and the merge barrier
  // ---------------------------------------------------------------------------

  /** The form fields of one `uploadChunk` call. */
  datatype UploadRequest = UploadRequest(fileName: string, index: string, chunkHash: string, chunk: Bytes)

  /** The body of the `mergeChunks` call. */
  datatype MergeRequest = MergeRequest(fileName: string, combinedHash: string)

  /** A form field's text: `FormData.append` turns `undefined` into "undefined". */
  function FieldText(v: Option<string>): (text: string)
    ensures v.Some? ==> text == v.value
    ensures text == "undefined" <==> v == None || v == Some("undefined")
  {
    match v
    case Some(s) => s
    case None => "undefined"
  }

  /** The upload of chunk `i`, carrying its own index and `results[i]`. */
  function UploadOf(fileName: string, chunks: seq<Bytes>, results: seq<Option<string>>, i: nat): (q: UploadRequest)
    requires i < |chunks| && |results| == |chunks|
    ensures q.fileName == fileName && q.chunk == chunks[i] && q.chunkHash == FieldText(results[i])
    ensures |q.index| > 0 && '_' !in q.index
  {
    DecimalDigitsAreDigits(NatToDecimal(i));
    UploadRequest(fileName, NatToDecimal(i), FieldText(results[i]), chunks[i])
  }

  /** The server's `parseInt` reads the index field of the upload of chunk `i` back as `i`. */
  lemma UploadIndexReadsBack(fileName: string, chunks: seq<Bytes>, results: seq<Option<string>>, i: nat)
    requires i < |chunks| && |results| == |chunks|
    ensures JsParseInt(UploadOf(fileName, chunks, results, i).index) == Some(i)
  {
    JsParseIntOfDecimal(i);
  }

  /** The uploads `chunks.map(...).filter(Boolean)` issues for indices `from` and
      up: one per index the second listing does not report, in index order. */
  function UploadsFrom(fileName: string, chunks: seq<Bytes>, results: seq<Option<string>>,
                       existing: seq<ListedChunk>, from: nat): (reqs: seq<UploadRequest>)
    requires from <= |chunks| && |results| == |chunks|
    ensures forall q :: q in reqs ==>
      exists i :: from <= i < |chunks| && !Listed(existing, i) && q == UploadOf(fileName, chunks, results, i)
    ensures forall i :: from <= i < |chunks| && !Listed(existing, i) ==>
      UploadOf(fileName, chunks, results, i) in reqs
    decreases |chunks| - from
  {
    if from == |chunks| then []
    else
      var rest := UploadsFrom(fileName, chunks, results, existing, from + 1);
      if Listed(existing, from) then rest
      else [UploadOf(fileName, chunks, results, from)] + rest
  }

  function Uploads(fileName: string, chunks: seq<Bytes>, results: seq<Option<string>>,
                   existing: seq<ListedChunk>): seq<UploadRequest>
    requires |results| == |chunks|
  {
    UploadsFrom(fileName, chunks, results, existing, 0)
  }

  /** What one client run sends: nothing past hashing when some worker fails
      (the completion test never fires), otherwise the uploads and, only when
      every upload went through (`Promise.all` resolved), the merge request. */
  datatype Run = Stalled | Sent(results: seq<Option<string>>, uploads: seq<UploadRequest>, merge: Option<MergeRequest>)

  /** `showPath` followed by `proceedWithUploadAndMerge`. `firstListing` and
      `secondListing` are the two `existing-chunks` replies; `delivered` says
      which upload requests the network delivered. */
  function ClientRun(file: Bytes, fileName: string, reported: Option<nat>,
                     firstListing: seq<ListedChunk>, secondListing: seq<ListedChunk>,
                     worker: Bytes -> Option<string>, combine: seq<Option<string>> -> string,
                     delivered: UploadRequest -> bool): (run: Run)
    ensures run.Sent? <==> AllComplete(firstListing, worker, Split(file, reported))
    ensures run.Sent? ==> |run.results| == WorkerCount(reported)
    ensures run.Sent? ==> run.results == PlannedHashes(firstListing, worker, Split(file, reported))
    ensures run.Sent? ==> run.uploads == Uploads(fileName, Split(file, reported), run.results, secondListing)
    ensures run.Sent? ==> (run.merge.Some? <==> forall q :: q in run.uploads ==> delivered(q))
    ensures run.Sent? && run.merge.Some? ==>
      run.merge.value == MergeRequest(fileName, CombinedHash(combine, run.results))
  {
    var chunks := Split(file, reported);
    if !AllComplete(firstListing, worker, chunks) then Stalled
    else
      var results := PlannedHashes(firstListing, worker, chunks);
      var uploads := Uploads(fileName, chunks, results, secondListing);
      var allDelivered := forall q :: q in uploads ==> delivered(q);
      Sent(results, uploads, if allDelivered then Some(MergeRequest(fileName, CombinedHash(combine, results))) else None)
  }
}

=== FILE: common.dfy ===
/** Values shared by the client, the Node service and the Java service:
    bytes, optional values, exceptions, the on-disk store and byte concatenation. */
module Common {

  newtype byte = x: int | 0 <= x < 256

  /** The contents of a file or of a file slice. */
  type Bytes = seq<byte>

  /** A Java `int` (request parameter `index`). */
  newtype int32 = x: int | -0x8000_0000 <= x < 0x8000_0000

  /** A present value, or JavaScript's `undefined` / `NaN`. */
  datatype Option<+T> = None | Some(value: T)

  /** The exceptions the Java services raise. */
  datatype Fault =
    | NumberFormatException
    | StringIndexOutOfBoundsException
    | IOException(message: string)

  /** A Java call that either returns a value or throws. */
  datatype Result<+T> = Ok(value: T) | Thrown(fault: Fault)

  /** One upload session: chunk file name (`index_hash`) to the chunk's bytes.
      A file name's session exists exactly when its directory exists. */
  type ChunkDir = map<string, Bytes>

  /** The two directories a service writes: the per-file chunk directories,
      and the merged files. */
  datatype Store = Store(chunks: map<string, ChunkDir>, merged: map<string, Bytes>)

  /** A store with no chunk directory and no merged file. */
  const EmptyStore := Store(map[], map[])

  /** The store after a call into the Java service, and what the call returned or threw. */
  datatype Outcome<+T> = Outcome(store: Store, result: Result<T>)

  /** The chunk directory of `fileName`, or an empty one when it does not exist. */
  function DirOf(st: Store, fileName: string): ChunkDir {
    if fileName in st.chunks then st.chunks[fileName] else map[]
  }

  /** Reply texts both services send. */
  const ChunkAlreadyExists := "Chunk already exists"
  const ChunkUploaded := "Chunk uploaded successfully"
  const NoChunksFound := "No chunks found"
  const FileMerged := "File merged successfully"

  /** `names` is one enumeration of the directory `dir`: every entry exactly once,
      in whatever order the file system lists them. */
  ghost predicate IsListing(names: seq<string>, dir: ChunkDir) {
    multiset(names) == multiset(dir.Keys)
  }

  /** The byte stream written by appending `parts` one after another. */
  function Flatten(parts: seq<Bytes>): Bytes {
    if |parts| == 0 then [] else Flatten(parts[..|parts| - 1]) + parts[|parts| - 1]
  }

  /** The contents of the chunks `names` of `dir`, in that order. */
  function ReadChunks(dir: ChunkDir, names: seq<string>): (parts: seq<Bytes>)
    requires forall k :: k in names ==> k in dir
    ensures |parts| == |names|
    ensures forall i :: 0 <= i < |names| ==> parts[i] == dir[names[i]]
  {
    seq(|names|, i requires 0 <= i < |names| => dir[names[i]])
  }

  /** What a running digest has been fed after `spark.append(h)` for each `h` of
      `hashes` in turn, when it had been fed `fed` before. */
  function AppendEach(fed: seq<Option<string>>, hashes: seq<Option<string>>): (input: seq<Option<string>>)
    ensures input == fed + hashes
    decreases |hashes|
  {
    if |hashes| == 0 then fed
    else
      assert fed + hashes == (fed + [hashes[0]]) + hashes[1..];
      AppendEach(fed + [hashes[0]], hashes[1..])
  }

  /** The whole-file hash formed by appending each chunk hash, in order, to one
      fresh digest and then calling `spark.end()`. Both the client and the Node
      service compute it this way. `combine` is `spark.end()` of a fresh digest
      fed exactly the given values. */
  function CombinedHash(combine: seq<Option<string>> -> string, hashes: seq<Option<string>>): (h: string)
    ensures h == combine(hashes)
  {
    assert [] + hashes == hashes;
    combine(AppendEach([], hashes))
  }

  /** Every name of a listing of `dir` is an entry of `dir`. */
  lemma ListedNamesExist(names: seq<string>, dir: ChunkDir)
    requires IsListing(names, dir)
    ensures forall k :: k in names ==> k in dir
  {
    forall k | k in names
      ensures k in dir
    {
      assert k in multiset(names);
    }
  }
}

=== FILE: end_to_end.dfy ===
/** The whole protocol against the Node service: the client lists what the server
    holds, hashes and uploads the rest, and asks for the merge; the server then
    rebuilds exactly the original file. */
module EndToEnd {
  import opened Common
  import opened ChunkKey
  import opened Partition
  import opened Sessions
  import opened Client
  import NodeService

  /** The per-chunk hashes a worker that never fails computes. */
  function ChunkHashes(hash: Bytes -> string, chunks: seq<Bytes>): (hashes: seq<string>)
    ensures |hashes| == |chunks|
    ensures forall i :: 0 <= i < |chunks| ==> hashes[i] == hash(chunks[i])
  {
    seq(|chunks|, i requires 0 <= i < |chunks| => hash(chunks[i]))
  }

  /** What an interrupted run of the same file leaves behind: every stored chunk is
      some chunk `i` of the file under its session name `i_hashes[i]`. */
  ghost predicate PartialSession(dir: ChunkDir, chunks: seq<Bytes>, hashes: seq<string>) {
    && |chunks| == |hashes|
    && forall k :: k in dir ==>
         exists i :: 0 <= i < |hashes| && k == SessionNames(hashes)[i] && dir[k] == chunks[i]
  }

  /** The server's state after it has handled `reqs` in order. */
  function ApplyUploads(st: Store, reqs: seq<UploadRequest>): Store
    decreases |reqs|
  {
    if |reqs| == 0 then st
    else
      var q := reqs[0];
      ApplyUploads(NodeService.Upload(st, q.fileName, q.index, q.chunkHash, q.chunk).store, reqs[1..])
  }

  // ---------------------------------------------------------------------------
  // Reading back what an interrupted run stored
  // ---------------------------------------------------------------------------

  /** Session names are distinct, and each decodes to its own index and hash. */
  lemma SessionNamesDecode(hashes: seq<string>)
    requires NoUnderscores(hashes)
    ensures forall i :: 0 <= i < |hashes| ==>
      NodeDecode(SessionNames(hashes)[i]) == ListedChunk(Some(i), Some(hashes[i]))
    ensures forall i, j :: 0 <= i < |hashes| && 0 <= j < |hashes| && SessionNames(hashes)[i] == SessionNames(hashes)[j] ==> i == j
  {
    forall i | 0 <= i < |hashes|
      ensures NodeDecode(SessionNames(hashes)[i]) == ListedChunk(Some(i), Some(hashes[i]))
    {
      NodeDecodeRoundTrip(i, hashes[i]);
    }
  }

  /** Each entry of the Node listing of a partial session is some index's entry. */
  lemma ListingEntry(st: Store, fileName: string, names: seq<string>, chunks: seq<Bytes>, hashes: seq<string>, j: nat)
    requires fileName in st.chunks && IsListing(names, st.chunks[fileName])
    requires PartialSession(st.chunks[fileName], chunks, hashes) && NoUnderscores(hashes)
    requires j < |names|
    ensures exists m :: 0 <= m < |hashes| && names[j] == SessionNames(hashes)[m]
                        && NodeService.ExistingChunks(st, fileName, names)[j] == ListedChunk(Some(m), Some(hashes[m]))
  {
    assert names[j] in multiset(names);
    assert names[j] in st.chunks[fileName];
    SessionNamesDecode(hashes);
  }

  /** An entry of the Node listing of a partial session that reports index `i`
      is chunk `i`'s own entry, and chunk `i` is stored. */
  lemma ListedIsStored(st: Store, fileName: string, names: seq<string>, chunks: seq<Bytes>, hashes: seq<string>, i: nat)
    requires fileName in st.chunks && IsListing(names, st.chunks[fileName])
    requires PartialSession(st.chunks[fileName], chunks, hashes) && NoUnderscores(hashes)
    requires i < |hashes|
    ensures forall c :: c in NodeService.ExistingChunks(st, fileName, names) && c.index == Some(i) ==>
      c == ListedChunk(Some(i), Some(hashes[i])) && SessionNames(hashes)[i] in st.chunks[fileName]
  {
    var existing := NodeService.ExistingChunks(st, fileName, names);
    forall c | c in existing && c.index == Some(i)
      ensures c == ListedChunk(Some(i), Some(hashes[i])) && SessionNames(hashes)[i] in st.chunks[fileName]
    {
      var j :| 0 <= j < |existing| && existing[j] == c;
      ListingEntry(st, fileName, names, chunks, hashes, j);
      assert names[j] in multiset(names);
    }
  }

  /** A stored chunk `i` of a partial session appears in its Node listing. */
  lemma StoredIsListed(st: Store, fileName: string, names: seq<string>, chunks: seq<Bytes>, hashes: seq<string>, i: nat)
    requires fileName in st.chunks && IsListing(names, st.chunks[fileName])
    requires NoUnderscores(hashes)
    requires i < |hashes| && SessionNames(hashes)[i] in st.chunks[fileName]
    ensures Listed(NodeService.ExistingChunks(st, fileName, names), i)
  {
    var existing := NodeService.ExistingChunks(st, fileName, names);
    assert SessionNames(hashes)[i] in multiset(st.chunks[fileName].Keys);
    var j :| 0 <= j < |names| && names[j] == SessionNames(hashes)[i];
    NodeDecodeRoundTrip(i, hashes[i]);
    assert existing[j] in existing;
  }

  /** The Node listing of a partial session reports index `i` exactly when chunk
      `i` is stored, and then with the hash it was stored under. */
  lemma ListedIffStored(st: Store, fileName: string, names: seq<string>, chunks: seq<Bytes>, hashes: seq<string>, i: nat)
    requires fileName in st.chunks ==> IsListing(names, st.chunks[fileName])
    requires PartialSession(DirOf(st, fileName), chunks, hashes) && NoUnderscores(hashes)
    requires i < |hashes|
    ensures var existing := NodeService.ExistingChunks(st, fileName, names);
      && (Listed(existing, i) <==> SessionNames(hashes)[i] in DirOf(st, fileName))
      && (Listed(existing, i) ==> FindListed(existing, i).value.hash == Some(hashes[i]))
  {
    var existing := NodeService.ExistingChunks(st, fileName, names);
    if fileName in st.chunks {
      ListedIsStored(st, fileName, names, chunks, hashes, i);
      if SessionNames(hashes)[i] in st.chunks[fileName] {
        StoredIsListed(st, fileName, names, chunks, hashes, i);
      }
      if Listed(existing, i) {
        var r := FindListed(existing, i);
        var k :| 0 <= k < |existing| && existing[k] == r.value && r.value.index == Some(i) && !Listed(existing[..k], i);
        assert existing[k] in existing;
      }
    }
  }

  /** A worker that never fails completes every chunk, and the `results` array
      then holds each chunk's hash: the server's copy for stored chunks, a fresh
      one for the rest, and the two agree. */
  lemma ResultsOfPartialSession(st: Store, fileName: string, names: seq<string>, chunks: seq<Bytes>,
                                worker: Bytes -> Option<string>, hash: Bytes -> string)
    requires fileName in st.chunks ==> IsListing(names, st.chunks[fileName])
    requires forall b :: worker(b) == Some(hash(b))
    requires NoUnderscores(ChunkHashes(hash, chunks))
    requires PartialSession(DirOf(st, fileName), chunks, ChunkHashes(hash, chunks))
    ensures var existing := NodeService.ExistingChunks(st, fileName, names);
      && AllComplete(existing, worker, chunks)
      && PlannedHashes(existing, worker, chunks) == Present(ChunkHashes(hash, chunks))
  {
    var hashes := ChunkHashes(hash, chunks);
    var existing := NodeService.ExistingChunks(st, fileName, names);
    forall i | 0 <= i < |chunks|
      ensures PlannedHashes(existing, worker, chunks)[i] == Some(hashes[i])
    {
      ListedIffStored(st, fileName, names, chunks, hashes, i);
    }
  }

  // ---------------------------------------------------------------------------
  // The uploads complete the session
  // ---------------------------------------------------------------------------

  /** A partial session that holds every session name is complete. */
  lemma PartialHoldingAllIsComplete(dir: ChunkDir, chunks: seq<Bytes>, hashes: seq<string>)
    requires PartialSession(dir, chunks, hashes) && NoUnderscores(hashes)
    requires forall i :: 0 <= i < |hashes| ==> SessionNames(hashes)[i] in dir
    ensures CompleteSession(dir, chunks, hashes)
  {
    SessionNamesDecode(hashes);
    forall i | 0 <= i < |hashes|
      ensures dir[SessionNames(hashes)[i]] == chunks[i]
    {
      var k := SessionNames(hashes)[i];
      var m :| 0 <= m < |hashes| && k == SessionNames(hashes)[m] && dir[k] == chunks[m];
    }
  }

  /** Uploading the missing chunk `i` to a partial session keeps it partial and adds
      exactly the name `i_hashes[i]`. */
  lemma UploadExtendsSession(st: Store, fileName: string, chunks: seq<Bytes>, hashes: seq<string>, i: nat)
    requires PartialSession(DirOf(st, fileName), chunks, hashes) && NoUnderscores(hashes)
    requires i < |hashes| && SessionNames(hashes)[i] !in DirOf(st, fileName)
    ensures var after := NodeService.Upload(st, fileName, NatToDecimal(i), hashes[i], chunks[i]).store;
      && PartialSession(DirOf(after, fileName), chunks, hashes)
      && DirOf(after, fileName).Keys == DirOf(st, fileName).Keys + {SessionNames(hashes)[i]}
  {
    var dir := DirOf(st, fileName);
    var after := NodeService.Upload(st, fileName, NatToDecimal(i), hashes[i], chunks[i]).store;
    var dir' := DirOf(after, fileName);
    var key := SessionNames(hashes)[i];
    forall k | k in dir'
      ensures exists m :: 0 <= m < |hashes| && k == SessionNames(hashes)[m] && dir'[k] == chunks[m]
    {
      if k == key {
        assert k == SessionNames(hashes)[i] && dir'[k] == chunks[i];
      } else {
        assert k in dir;
      }
    }
  }

  /** The invariant of handling the client's uploads from index `from` on: the
      directory is a partial session that holds every chunk below `from` and,
      from `from` on, exactly the chunks the listing reported. */
  ghost predicate UploadedBelow(dir: ChunkDir, chunks: seq<Bytes>, hashes: seq<string>, existing: seq<ListedChunk>, from: nat) {
    && from <= |chunks|
    && PartialSession(dir, chunks, hashes)
    && (forall i :: from <= i < |hashes| ==> (SessionNames(hashes)[i] in dir <==> Listed(existing, i)))
    && (forall i :: 0 <= i < from ==> SessionNames(hashes)[i] in dir)
  }

  /** Handling the upload of the unlisted chunk `from` moves the invariant on by one. */
  lemma UploadStep(st: Store, fileName: string, chunks: seq<Bytes>, hashes: seq<string>, existing: seq<ListedChunk>, from: nat)
    requires NoUnderscores(hashes)
    requires UploadedBelow(DirOf(st, fileName), chunks, hashes, existing, from)
    requires from < |chunks| && !Listed(existing, from)
    ensures var results := Present(hashes);
      var st' := NodeService.Upload(st, fileName, NatToDecimal(from), hashes[from], chunks[from]).store;
      && ApplyUploads(st, UploadsFrom(fileName, chunks, results, existing, from))
         == ApplyUploads(st', UploadsFrom(fileName, chunks, results, existing, from + 1))
      && UploadedBelow(DirOf(st', fileName), chunks, hashes, existing, from + 1)
  {
    var results := Present(hashes);
    var q := UploadOf(fileName, chunks, results, from);
    var rest := UploadsFrom(fileName, chunks, results, existing, from + 1);
    assert UploadsFrom(fileName, chunks, results, existing, from) == [q] + rest;
    assert ([q] + rest)[1..] == rest;
    UploadExtendsSession(st, fileName, chunks, hashes, from);
    SessionNamesDecode(hashes);
  }

  /** A listed index is skipped: no upload is sent for it, and the invariant moves on. */
  lemma SkipStep(st: Store, fileName: string, chunks: seq<Bytes>, hashes: seq<string>, existing: seq<ListedChunk>, from: nat)
    requires UploadedBelow(DirOf(st, fileName), chunks, hashes, existing, from)
    requires from < |chunks| && Listed(existing, from)
    ensures var results := Present(hashes);
      && UploadsFrom(fileName, chunks, results, existing, from) == UploadsFrom(fileName, chunks, results, existing, from + 1)
      && UploadedBelow(DirOf(st, fileName), chunks, hashes, existing, from + 1)
  {
  }

  /** Handling the uploads the client sends for indices `from` and up, in order,
      leaves a complete session, provided exactly the unlisted indices above
      `from` are missing and everything below `from` is stored. */
  lemma {:induction false} UploadsComplete(st: Store, fileName: string, chunks: seq<Bytes>, hashes: seq<string>,
                                           existing: seq<ListedChunk>, from: nat)
    requires NoUnderscores(hashes)
    requires UploadedBelow(DirOf(st, fileName), chunks, hashes, existing, from)
    ensures CompleteSession(
      DirOf(ApplyUploads(st, UploadsFrom(fileName, chunks, Present(hashes), existing, from)), fileName),
      chunks, hashes)
    decreases |chunks| - from
  {
    if from == |chunks| {
      PartialHoldingAllIsComplete(DirOf(st, fileName), chunks, hashes);
      assert CompleteSession(DirOf(ApplyUploads(st, UploadsFrom(fileName, chunks, Present(hashes), existing, from)), fileName), chunks, hashes);
    } else if Listed(existing, from) {
      SkipStep(st, fileName, chunks, hashes, existing, from);
      UploadsComplete(st, fileName, chunks, hashes, existing, from + 1);
      var rest := UploadsFrom(fileName, chunks, Present(hashes), existing, from + 1);
      assert UploadsFrom(fileName, chunks, Present(hashes), existing, from) == rest;
      assert CompleteSession(DirOf(ApplyUploads(st, UploadsFrom(fileName, chunks, Present(hashes), existing, from)), fileName), chunks, hashes);
    } else {
      UploadStep(st, fileName, chunks, hashes, existing, from);
      var st' := NodeService.Upload(st, fileName, NatToDecimal(from), hashes[from], chunks[from]).store;
      UploadsComplete(st', fileName, chunks, hashes, existing, from + 1);
      var after := ApplyUploads(st', UploadsFrom(fileName, chunks, Present(hashes), existing, from + 1));
      assert ApplyUploads(st, UploadsFrom(fileName, chunks, Present(hashes), existing, from)) == after;
      assert CompleteSession(DirOf(ApplyUploads(st, UploadsFrom(fileName, chunks, Present(hashes), existing, from)), fileName), chunks, hashes);
    }
  }

  // ---------------------------------------------------------------------------
  // The end-to-end theorems
  // ---------------------------------------------------------------------------

  /** Resuming an interrupted upload: whatever chunks of the file the server
      already holds, a client whose hash worker never fails sends a merge request
      once its uploads are delivered, the server then holds exactly one chunk per
      index, and the Node merge of any listing of it succeeds and rebuilds the
      original file. */
  lemma ResumedRunMerges(st: Store, file: Bytes, fileName: string, reported: Option<nat>, names: seq<string>,
                         worker: Bytes -> Option<string>, hash: Bytes -> string,
                         combine: seq<Option<string>> -> string, delivered: UploadRequest -> bool)
    requires fileName in st.chunks ==> IsListing(names, st.chunks[fileName])
    requires forall b :: worker(b) == Some(hash(b))
    requires forall b :: '_' !in hash(b)
    requires PartialSession(DirOf(st, fileName), Split(file, reported), ChunkHashes(hash, Split(file, reported)))
    requires forall q :: delivered(q)
    ensures var existing := NodeService.ExistingChunks(st, fileName, names);
      var run := ClientRun(file, fileName, reported, existing, existing, worker, combine, delivered);
      && run.Sent? && run.merge.Some?
      && var after := ApplyUploads(st, run.uploads);
         && fileName in after.chunks
         && forall listing :: IsListing(listing, after.chunks[fileName]) ==>
              var out := NodeService.Merge(after, fileName, run.merge.value.combinedHash, listing, combine);
              && out.reply == NodeService.Reply(200, NodeService.MessageWithHash(FileMerged, run.merge.value.combinedHash))
              && fileName in out.store.merged
              && out.store.merged[fileName] == file
  {
    var chunks := Split(file, reported);
    var hashes := ChunkHashes(hash, chunks);
    var existing := NodeService.ExistingChunks(st, fileName, names);
    ResultsOfPartialSession(st, fileName, names, chunks, worker, hash);
    var run := ClientRun(file, fileName, reported, existing, existing, worker, combine, delivered);
    assert run.results == Present(hashes);
    forall i | 0 <= i < |hashes|
      ensures SessionNames(hashes)[i] in DirOf(st, fileName) <==> Listed(existing, i)
    {
      ListedIffStored(st, fileName, names, chunks, hashes, i);
    }
    UploadsComplete(st, fileName, chunks, hashes, existing, 0);
    var after := ApplyUploads(st, run.uploads);
    var dir := DirOf(after, fileName);
    assert SessionNames(hashes)[0] in dir;
    SplitRoundTrip(file, reported);
    forall listing | IsListing(listing, after.chunks[fileName])
      ensures var out := NodeService.Merge(after, fileName, run.merge.value.combinedHash, listing, combine);
        && out.reply == NodeService.Reply(200, NodeService.MessageWithHash(FileMerged, run.merge.value.combinedHash))
        && fileName in out.store.merged
        && out.store.merged[fileName] == file
    {
      NodeService.MergeOfCompleteSession(after, fileName, chunks, hashes, listing, run.merge.value.combinedHash, combine);
    }
  }

  /** The headline: uploading a file the server has never seen, then merging it,
      succeeds and stores exactly the original bytes. */
  lemma FreshUploadMerges(st: Store, file: Bytes, fileName: string, reported: Option<nat>,
                          worker: Bytes -> Option<string>, hash: Bytes -> string,
                          combine: seq<Option<string>> -> string, delivered: UploadRequest -> bool)
    requires fileName !in st.chunks
    requires forall b :: worker(b) == Some(hash(b))
    requires forall b :: '_' !in hash(b)
    requires forall q :: delivered(q)
    ensures var run := ClientRun(file, fileName, reported, [], [], worker, combine, delivered);
      && run.Sent? && run.merge.Some?
      && var after := ApplyUploads(st, run.uploads);
         && fileName in after.chunks
         && forall listing :: IsListing(listing, after.chunks[fileName]) ==>
              var out := NodeService.Merge(after, fileName, run.merge.value.combinedHash, listing, combine);
              && out.reply.status == 200
              && fileName in out.store.merged
              && out.store.merged[fileName] == file
  {
    assert NodeService.ExistingChunks(st, fileName, []) == [];
    ResumedRunMerges(st, file, fileName, reported, [], worker, hash, combine, delivered);
  }
}

=== FILE: file_service.dfy ===
/** The Java `FileService` (FileService.java): a chunk store whose save overwrites,
    a listing of the stored names, and a merge that throws instead of replying.
    It sorts and concatenates exactly as the controller does, but keeps the
    emptied chunk directory when the hash check fails. */
module FileService {
  import opened Common
  import opened ChunkKey
  import opened Sessions
  import JavaController

  const HashDoesNotMatch := "Combined hash does not match"

  /** `saveChunk`: creates the chunk directory when missing and writes the bytes
      under `index_hash`, replacing whatever that name held. */
  function SaveChunk(st: Store, fileName: string, index: int32, chunkHash: string, bytes: Bytes): (st': Store)
    ensures var key := ChunkName(IntToDecimal(index as int), chunkHash);
      && st'.merged == st.merged
      && fileName in st'.chunks
      && st'.chunks[fileName].Keys == DirOf(st, fileName).Keys + {key}
      && st'.chunks[fileName][key] == bytes
      && (forall k :: k in DirOf(st, fileName) && k != key ==> st'.chunks[fileName][k] == DirOf(st, fileName)[k])
      && (forall other :: other != fileName ==>
            (other in st'.chunks <==> other in st.chunks)
            && (other in st.chunks ==> st'.chunks[other] == st.chunks[other]))
  {
    var key := ChunkName(IntToDecimal(index as int), chunkHash);
    Store(st.chunks[fileName := DirOf(st, fileName)[key := bytes]], st.merged)
  }

  /** Saving the same chunk twice keeps the second bytes, where the controller's
      upload keeps the bytes stored first. */
  lemma SaveChunkLastWriteWins(st: Store, fileName: string, index: int32, chunkHash: string, first: Bytes, second: Bytes)
    ensures SaveChunk(SaveChunk(st, fileName, index, chunkHash, first), fileName, index, chunkHash, second)
            == SaveChunk(st, fileName, index, chunkHash, second)
    ensures var key := ChunkName(IntToDecimal(index as int), chunkHash);
      var stored := JavaController.Upload(JavaController.Upload(st, fileName, index, chunkHash, first).store,
                                          fileName, index, chunkHash, second).store;
      stored.chunks[fileName][key] == (if key in DirOf(st, fileName) then DirOf(st, fileName)[key] else first)
  {
    var key := ChunkName(IntToDecimal(index as int), chunkHash);
    var once := SaveChunk(st, fileName, index, chunkHash, second);
    var twice := SaveChunk(SaveChunk(st, fileName, index, chunkHash, first), fileName, index, chunkHash, second);
    assert twice.chunks[fileName] == once.chunks[fileName];
  }

  /** `getExistingChunks`: every stored chunk name of `fileName`, once each, or
      none when the directory is missing. The store is only read. */
  function ExistingChunks(st: Store, fileName: string, names: seq<string>): (r: seq<string>)
    requires fileName in st.chunks ==> IsListing(names, st.chunks[fileName])
    ensures multiset(r) == multiset(DirOf(st, fileName).Keys)
  {
    if fileName !in st.chunks then
      assert DirOf(st, fileName).Keys == {};
      []
    else names
  }

  /** A saved chunk shows up in the next listing under its `index_hash` name. */
  lemma ListedAfterSave(st: Store, fileName: string, index: int32, chunkHash: string, bytes: Bytes, names: seq<string>)
    requires IsListing(names, SaveChunk(st, fileName, index, chunkHash, bytes).chunks[fileName])
    ensures ChunkName(IntToDecimal(index as int), chunkHash)
            in ExistingChunks(SaveChunk(st, fileName, index, chunkHash, bytes), fileName, names)
  {
    var key := ChunkName(IntToDecimal(index as int), chunkHash);
    var after := SaveChunk(st, fileName, index, chunkHash, bytes);
    assert key in multiset(after.chunks[fileName].Keys);
  }

  /** `mergeChunks`: throws when the directory cannot be listed or a name's index
      prefix cannot be parsed, leaving the store as it was; otherwise writes the
      chunks in ascending index order to the merged file and deletes them. When
      the hash of the merged bytes is `combinedHash` the chunk directory is
      removed; otherwise the merged file is deleted, the empty directory stays
      and the call throws. */
  function MergeChunks(st: Store, fileName: string, combinedHash: string, names: seq<string>,
                       hash: Bytes -> string): (out: Outcome<()>)
    requires fileName in st.chunks ==> IsListing(names, st.chunks[fileName])
    ensures fileName !in st.chunks ==> out == Outcome(st, Thrown(IOException(NoChunksFound)))
    ensures fileName in st.chunks && JavaController.SortThrows(names) ==>
      out == Outcome(st, Thrown(NumberFormatException))
    ensures fileName in st.chunks && !JavaController.SortThrows(names) ==>
      var merged := JavaController.MergedBytes(st.chunks[fileName], names);
      && (hash(merged) == combinedHash ==>
            && out.result == Ok(())
            && out.store == Store(st.chunks - {fileName}, st.merged[fileName := merged]))
      && (hash(merged) != combinedHash ==>
            && out.result == Thrown(IOException(HashDoesNotMatch))
            && out.store == Store(st.chunks[fileName := map[]], st.merged - {fileName}))
  {
    if fileName !in st.chunks then Outcome(st, Thrown(IOException(NoChunksFound)))
    else if JavaController.SortThrows(names) then Outcome(st, Thrown(NumberFormatException))
    else
      var merged := JavaController.MergedBytes(st.chunks[fileName], names);
      if hash(merged) != combinedHash then
        Outcome(Store(st.chunks[fileName := map[]], st.merged - {fileName}), Thrown(IOException(HashDoesNotMatch)))
      else
        Outcome(Store(st.chunks - {fileName}, st.merged[fileName := merged]), Ok(()))
  }

  /** A complete session merges into the whole file exactly when `combinedHash` is
      the hash of its bytes; either way every chunk is gone, and on failure the
      emptied directory is what a later listing or merge finds. */
  lemma MergeChunksOfCompleteSession(st: Store, fileName: string, chunks: seq<Bytes>, hashes: seq<string>,
                                     names: seq<string>, combinedHash: string, hash: Bytes -> string)
    requires fileName in st.chunks && CompleteSession(st.chunks[fileName], chunks, hashes)
    requires |hashes| <= MaxInt32 + 1
    requires IsListing(names, st.chunks[fileName])
    ensures var out := MergeChunks(st, fileName, combinedHash, names, hash);
      && (out.result.Ok? <==> combinedHash == hash(Flatten(chunks)))
      && (out.result.Ok? ==> fileName !in out.store.chunks && out.store.merged[fileName] == Flatten(chunks))
      && (out.result.Thrown? ==> out.store.chunks[fileName] == map[] && fileName !in out.store.merged)
  {
    var dir := st.chunks[fileName];
    SessionJavaKeys(hashes);
    SessionOrder(JavaKey, dir, chunks, hashes, names);
    assert !JavaController.SortThrows(names) by {
      forall i | 0 <= i < |names|
        ensures JavaKey(names[i]).Some?
      {
        assert names[i] in multiset(names);
        assert names[i] in dir;
      }
    }
  }
}

=== FILE: java_controller.dfy ===
/** The Java upload controller (FileUploadController.java): idempotent chunk
    upload, a merge that checks a hash of the merged bytes, the index-only chunk
    listing and the merged-file lookup. Replies are the `msg` / `md5` /
    `existingChunks` entries of the returned map; a thrown exception is `Thrown`. */
module JavaController {
  import opened Common
  import opened ChunkKey
  import opened StableSort
  import opened Sessions

  const HashMismatch := "Combined hash mismatch"

  // ---------------------------------------------------------------------------
  // POST /upload
  // ---------------------------------------------------------------------------

  /** Writes the chunk to `uploadDir/fileName/index_hash`, creating the directory;
      when that file exists nothing is written. */
  function Upload(st: Store, fileName: string, index: int32, chunkHash: string, bytes: Bytes): (out: Outcome<string>)
    ensures var key := ChunkName(IntToDecimal(index as int), chunkHash);
      var existed := key in DirOf(st, fileName);
      && out.result == Ok(if existed then ChunkAlreadyExists else ChunkUploaded)
      && (existed ==> out.store == st)
      && out.store.merged == st.merged
      && fileName in out.store.chunks
      && out.store.chunks[fileName].Keys == DirOf(st, fileName).Keys + {key}
      && out.store.chunks[fileName][key] == (if existed then DirOf(st, fileName)[key] else bytes)
      && (forall k :: k in DirOf(st, fileName) && k != key ==> out.store.chunks[fileName][k] == DirOf(st, fileName)[k])
      && (forall other :: other != fileName ==>
            (other in out.store.chunks <==> other in st.chunks)
            && (other in st.chunks ==> out.store.chunks[other] == st.chunks[other]))
  {
    var key := ChunkName(IntToDecimal(index as int), chunkHash);
    if key in DirOf(st, fileName) then
      Outcome(st, Ok(ChunkAlreadyExists))
    else
      Outcome(Store(st.chunks[fileName := DirOf(st, fileName)[key := bytes]], st.merged), Ok(ChunkUploaded))
  }

  /** A retried upload finds the chunk and leaves the store as the first upload left it. */
  lemma UploadIdempotent(st: Store, fileName: string, index: int32, chunkHash: string, bytes: Bytes, retried: Bytes)
    ensures var first := Upload(st, fileName, index, chunkHash, bytes);
      var second := Upload(first.store, fileName, index, chunkHash, retried);
      && second.store == first.store
      && second.result == Ok(ChunkAlreadyExists)
  {
  }

  // ---------------------------------------------------------------------------
  // POST /merge
  // ---------------------------------------------------------------------------

  /** `sortedChunks.sort(...)` parses both names of every comparison; with two or
      more names every name takes part in one, so a name whose prefix is not an
      `int` makes the sort throw. A single name is never compared. The sort
      throws exactly when it could not have produced an ascending write order. */
  function SortThrows(names: seq<string>): (b: bool)
    ensures b <==> !SortedBy(JavaKey, MergeOrder(names))
  {
    if |names| >= 2 && exists i :: 0 <= i < |names| && JavaKey(names[i]).None? then
      var i :| 0 <= i < |names| && JavaKey(names[i]).None?;
      UnkeyedBreaksOrder(names, names[i]);
      true
    else
      KeyedSortsInOrder(names);
      false
  }

  /** Sorting two or more names one of which has no key cannot give an
      ascending order. */
  lemma UnkeyedBreaksOrder(names: seq<string>, bad: string)
    requires |names| >= 2 && bad in names && JavaKey(bad).None?
    ensures !SortedBy(JavaKey, MergeOrder(names))
  {
    var order := MergeOrder(names);
    assert bad in multiset(names);
    assert bad in multiset(order);
    var p :| 0 <= p < |order| && order[p] == bad;
    assert |order| == |multiset(names)| == |names|;
    if SortedBy(JavaKey, order) {
      SortedFirst(JavaKey, order, p);
    }
  }

  /** A single name, or names that all have keys, sort into ascending order. */
  lemma KeyedSortsInOrder(names: seq<string>)
    requires |names| < 2 || forall i :: 0 <= i < |names| ==> JavaKey(names[i]).Some?
    ensures SortedBy(JavaKey, MergeOrder(names))
  {
    assert |MergeOrder(names)| == |multiset(names)| == |names|;
  }

  /** The write order: the listing stably sorted by `Integer.parseInt(name.split("_")[0])`. */
  function MergeOrder(names: seq<string>): (order: seq<string>)
    ensures StablySorted(JavaKey, order, names)
  {
    SortIsStableSort(JavaKey, names);
    InsertionSort(JavaKey, names)
  }

  /** The bytes copied into the merged file: each chunk, in write order. */
  function MergedBytes(dir: ChunkDir, names: seq<string>): (bytes: Bytes)
    requires IsListing(names, dir)
    ensures exists order :: && StablySorted(JavaKey, order, names)
                            && (forall k :: k in order ==> k in dir)
                            && bytes == Flatten(ReadChunks(dir, order))
  {
    var order := MergeOrder(names);
    ListedNamesExist(order, dir);
    Flatten(ReadChunks(dir, order))
  }

  /** Merges the chunks of `fileName` in ascending index order, deletes each chunk
      and then the chunk directory, and keeps the merged file only when the hash
      of its bytes equals `combinedHash`. `names` is the directory listing and
      `hash` the digest of a byte string (`DigestUtils.md5Hex`). */
  function Merge(st: Store, fileName: string, combinedHash: string, names: seq<string>,
                 hash: Bytes -> string): (out: Outcome<string>)
    requires fileName in st.chunks ==> IsListing(names, st.chunks[fileName])
    ensures fileName !in st.chunks ==> out == Outcome(st, Ok(NoChunksFound))
    ensures fileName in st.chunks && SortThrows(names) ==> out == Outcome(st, Thrown(NumberFormatException))
    ensures fileName in st.chunks && !SortThrows(names) ==>
      var merged := MergedBytes(st.chunks[fileName], names);
      && out.store.chunks == st.chunks - {fileName}
      && (hash(merged) == combinedHash ==>
            out.result == Ok(FileMerged) && out.store.merged == st.merged[fileName := merged])
      && (hash(merged) != combinedHash ==>
            out.result == Ok(HashMismatch) && out.store.merged == st.merged - {fileName})
  {
    if fileName !in st.chunks then Outcome(st, Ok(NoChunksFound))
    else if SortThrows(names) then Outcome(st, Thrown(NumberFormatException))
    else
      var merged := MergedBytes(st.chunks[fileName], names);
      var remaining := st.chunks - {fileName};
      if hash(merged) != combinedHash then
        Outcome(Store(remaining, st.merged - {fileName}), Ok(HashMismatch))
      else
        Outcome(Store(remaining, st.merged[fileName := merged]), Ok(FileMerged))
  }

  /** Merging a directory that holds exactly `i_hashes[i]` for every index reads
      the chunks back in index order whatever the listing order, and succeeds
      exactly when `combinedHash` is the hash of the whole file's bytes; the
      hashes in the names play no part. */
  lemma MergeOfCompleteSession(st: Store, fileName: string, chunks: seq<Bytes>, hashes: seq<string>,
                               names: seq<string>, combinedHash: string, hash: Bytes -> string)
    requires fileName in st.chunks && CompleteSession(st.chunks[fileName], chunks, hashes)
    requires |hashes| <= MaxInt32 + 1
    requires IsListing(names, st.chunks[fileName])
    ensures var out := Merge(st, fileName, combinedHash, names, hash);
      && (out.result == Ok(FileMerged) <==> combinedHash == hash(Flatten(chunks)))
      && (combinedHash == hash(Flatten(chunks)) ==>
            fileName in out.store.merged && out.store.merged[fileName] == Flatten(chunks))
      && fileName !in out.store.chunks
  {
    var dir := st.chunks[fileName];
    SessionJavaKeys(hashes);
    SessionOrder(JavaKey, dir, chunks, hashes, names);
    assert !SortThrows(names) by {
      forall i | 0 <= i < |names|
        ensures JavaKey(names[i]).Some?
      {
        assert names[i] in multiset(names);
        assert names[i] in dir;
        assert names[i] in SessionNames(hashes);
      }
    }
  }

  /** With two or more chunks, one badly named chunk makes the merge throw before
      anything is written. */
  lemma UnparsableNameThrows(st: Store, fileName: string, combinedHash: string, names: seq<string>, hash: Bytes -> string)
    requires fileName in st.chunks && IsListing(names, st.chunks[fileName])
    requires |names| >= 2 && exists i :: 0 <= i < |names| && JavaKey(names[i]).None?
    ensures Merge(st, fileName, combinedHash, names, hash) == Outcome(st, Thrown(NumberFormatException))
  {
  }

  // ---------------------------------------------------------------------------
  // GET /existing-chunks and GET /existing-file
  // ---------------------------------------------------------------------------

  /** `existingChunks`: each listed name's text before its first '_' (the index
      only), or nothing when the directory is missing; a name without '_' makes
      `substring(0, -1)` throw. */
  function ExistingChunks(st: Store, fileName: string, names: seq<string>): (out: Result<seq<string>>)
    requires fileName in st.chunks ==> IsListing(names, st.chunks[fileName])
    ensures fileName !in st.chunks ==> out == Ok([])
    ensures fileName in st.chunks ==>
      (out.Thrown? <==> exists i :: 0 <= i < |names| && '_' !in names[i])
    ensures out.Ok? && fileName in st.chunks ==>
      && |out.value| == |names|
      && forall i :: 0 <= i < |names| ==> UnderscorePrefix(out.value[i], names[i])
  {
    if fileName !in st.chunks then Ok([])
    else if exists i :: 0 <= i < |names| && '_' !in names[i] then Thrown(StringIndexOutOfBoundsException)
    else
      var prefixes := seq(|names|, i requires 0 <= i < |names| => FirstSegment(names[i]));
      assert forall i :: 0 <= i < |names| ==> UnderscorePrefix(prefixes[i], names[i]) by {
        forall i | 0 <= i < |names|
          ensures UnderscorePrefix(prefixes[i], names[i])
        {
          var k := FindUnderscore(names[i]).value;
          assert prefixes[i] == names[i][..k];
        }
      }
      Ok(prefixes)
  }

  /** `p` is the text of `name` before its first '_'. */
  predicate UnderscorePrefix(p: string, name: string) {
    && |p| < |name|
    && name[..|p|] == p
    && name[|p|] == '_'
    && '_' !in p
  }

  /** A chunk uploaded with `int` index `i` is listed as the text of `i`. */
  lemma ListedAfterUpload(st: Store, fileName: string, index: int32, chunkHash: string, bytes: Bytes, names: seq<string>)
    requires IsListing(names, Upload(st, fileName, index, chunkHash, bytes).store.chunks[fileName])
    ensures var listed := ExistingChunks(Upload(st, fileName, index, chunkHash, bytes).store, fileName, names);
      listed.Ok? ==> IntToDecimal(index as int) in listed.value
  {
    var after := Upload(st, fileName, index, chunkHash, bytes).store;
    var key := ChunkName(IntToDecimal(index as int), chunkHash);
    var listed := ExistingChunks(after, fileName, names);
    assert key in multiset(after.chunks[fileName].Keys);
    assert key in multiset(names);
    var j :| 0 <= j < |names| && names[j] == key;
    JavaParseIntOfDecimal(index);
    SegmentsOfChunkName(IntToDecimal(index as int), chunkHash);
    if listed.Ok? {
      var p := listed.value[j];
      assert UnderscorePrefix(p, key);
      assert FindUnderscore(key) == Some(|IntToDecimal(index as int)|);
      assert key[|IntToDecimal(index as int)|] == '_';
      assert |p| == |IntToDecimal(index as int)|;
      assert p == key[..|p|];
      assert listed.value[j] in listed.value;
    }
  }

  /** `md5`: empty when no merged file exists, else the hash of its bytes. */
  function ExistingFile(st: Store, fileName: string, hash: Bytes -> string): (md5: string)
    ensures fileName !in st.merged ==> md5 == ""
    ensures fileName in st.merged ==> md5 == hash(st.merged[fileName])
  {
    if fileName in st.merged then hash(st.merged[fileName]) else ""
  }

  /** After a merge that reports success, the merged-file lookup returns exactly
      the `combinedHash` the merge accepted. */
  lemma ExistingFileAfterMerge(st: Store, fileName: string, combinedHash: string, names: seq<string>, hash: Bytes -> string)
    requires fileName in st.chunks ==> IsListing(names, st.chunks[fileName])
    requires Merge(st, fileName, combinedHash, names, hash).result == Ok(FileMerged)
    ensures ExistingFile(Merge(st, fileName, combinedHash, names, hash).store, fileName, hash) == combinedHash
  {
  }
}

=== FILE: node_service.dfy ===
/** The Node service (node-service/app.js): the existing-chunks listing, the
    idempotent chunk upload, and the merge that verifies the combination of the
    hashes carried in the chunk names. */
module NodeService {
  import opened Common
  import opened ChunkKey
  import opened StableSort
  import opened Sessions

  /** A JSON reply body: `{message}`, `{message, hash}` or `{error}`. */
  datatype Body = Message(message: string) | MessageWithHash(message: string, hash: string) | Error(error: string)

  datatype Reply = Reply(status: int, body: Body)

  /** The store after a request, and the status and JSON body sent back. */
  datatype Response = Response(store: Store, reply: Reply)

  const InvalidCombinedHash := "Invalid combined hash"

  // ---------------------------------------------------------------------------
  // GET /existing-chunks
  // ---------------------------------------------------------------------------

  /** `{existingChunks}`: one decoded entry per listed chunk name, in listing
      order, or none when the file name has no chunk directory. The store is only
      read. */
  function ExistingChunks(st: Store, fileName: string, names: seq<string>): (r: seq<ListedChunk>)
    requires fileName in st.chunks ==> IsListing(names, st.chunks[fileName])
    ensures fileName !in st.chunks ==> r == []
    ensures fileName in st.chunks ==> |r| == |names| == |st.chunks[fileName]|
    ensures fileName in st.chunks ==> forall i :: 0 <= i < |names| ==> r[i] == NodeDecode(names[i])
  {
    if fileName !in st.chunks then []
    else
      assert |names| == |multiset(names)| == |multiset(st.chunks[fileName].Keys)|;
      seq(|names|, i requires 0 <= i < |names| => NodeDecode(names[i]))
  }

  /** A chunk uploaded under index `n` and hash `h` shows up in the next listing as
      `{index: n, hash: h}`. */
  lemma ListedAfterUpload(st: Store, fileName: string, n: nat, chunkHash: string, bytes: Bytes, names: seq<string>)
    requires '_' !in chunkHash
    requires IsListing(names, Upload(st, fileName, NatToDecimal(n), chunkHash, bytes).store.chunks[fileName])
    ensures ListedChunk(Some(n), Some(chunkHash))
            in ExistingChunks(Upload(st, fileName, NatToDecimal(n), chunkHash, bytes).store, fileName, names)
  {
    var after := Upload(st, fileName, NatToDecimal(n), chunkHash, bytes).store;
    var key := ChunkName(NatToDecimal(n), chunkHash);
    assert key in multiset(after.chunks[fileName].Keys);
    assert key in multiset(names);
    var j :| 0 <= j < |names| && names[j] == key;
    NodeDecodeRoundTrip(n, chunkHash);
    assert ExistingChunks(after, fileName, names)[j] == ListedChunk(Some(n), Some(chunkHash));
  }

  // ---------------------------------------------------------------------------
  // POST /upload
  // ---------------------------------------------------------------------------

  /** Stores `bytes` as `${index}_${chunkHash}` in the chunk directory of
      `fileName`, creating the directory; an existing chunk of that name is kept
      as it is. The bytes are not checked against `chunkHash`. */
  function Upload(st: Store, fileName: string, index: string, chunkHash: string, bytes: Bytes): (out: Response)
    ensures var key := ChunkName(index, chunkHash);
      var existed := key in DirOf(st, fileName);
      && out.reply == Reply(200, Message(if existed then ChunkAlreadyExists else ChunkUploaded))
      && (existed ==> out.store == st)
      && out.store.merged == st.merged
      && fileName in out.store.chunks
      && out.store.chunks[fileName].Keys == DirOf(st, fileName).Keys + {key}
      && out.store.chunks[fileName][key] == (if existed then DirOf(st, fileName)[key] else bytes)
      && (forall k :: k in DirOf(st, fileName) && k != key ==> out.store.chunks[fileName][k] == DirOf(st, fileName)[k])
      && (forall other :: other != fileName ==>
            (other in out.store.chunks <==> other in st.chunks)
            && (other in st.chunks ==> out.store.chunks[other] == st.chunks[other]))
  {
    var key := ChunkName(index, chunkHash);
    if fileName in st.chunks && key in st.chunks[fileName] then
      Response(st, Reply(200, Message(ChunkAlreadyExists)))
    else
      var dir := DirOf(st, fileName)[key := bytes];
      Response(Store(st.chunks[fileName := dir], st.merged), Reply(200, Message(ChunkUploaded)))
  }

  /** Retrying an upload changes nothing: the second call finds the chunk and
      replies that it already exists, and the store keeps the first call's bytes. */
  lemma UploadIdempotent(st: Store, fileName: string, index: string, chunkHash: string, bytes: Bytes, retried: Bytes)
    ensures var first := Upload(st, fileName, index, chunkHash, bytes);
      var second := Upload(first.store, fileName, index, chunkHash, retried);
      && second.store == first.store
      && second.reply == Reply(200, Message(ChunkAlreadyExists))
  {
  }

  // ---------------------------------------------------------------------------
  // POST /merge
  // ---------------------------------------------------------------------------

  /** The write order: the listing stably sorted by `parseInt(name.split('_')[0])`. */
  function MergeOrder(names: seq<string>): (order: seq<string>)
    ensures StablySorted(NodeKey, order, names)
  {
    SortIsStableSort(NodeKey, names);
    InsertionSort(NodeKey, names)
  }

  /** The hash each chunk name carries, `name.split('_')[1]`, in write order. */
  function NameHashes(order: seq<string>): (hashes: seq<Option<string>>)
    ensures |hashes| == |order|
    ensures forall i :: 0 <= i < |order| ==> hashes[i] == SecondSegment(order[i])
  {
    seq(|order|, i requires 0 <= i < |order| => SecondSegment(order[i]))
  }

  /** The bytes the write stream receives: each listed chunk, in write order. */
  function MergedBytes(dir: ChunkDir, names: seq<string>): (bytes: Bytes)
    requires IsListing(names, dir)
    ensures exists order :: && StablySorted(NodeKey, order, names)
                            && (forall k :: k in order ==> k in dir)
                            && bytes == Flatten(ReadChunks(dir, order))
  {
    var order := MergeOrder(names);
    ListedNamesExist(order, dir);
    Flatten(ReadChunks(dir, order))
  }

  /** `calculateCombinedHash` of the hashes carried by the names, in write order. */
  function NameCombinedHash(names: seq<string>, combine: seq<Option<string>> -> string): (h: string)
    ensures exists order :: StablySorted(NodeKey, order, names) && h == combine(NameHashes(order))
  {
    var order := MergeOrder(names);
    CombinedHash(combine, NameHashes(order))
  }

  /** Merges the chunks of `fileName` in ascending index order into the merged
      file, deletes every chunk and the chunk directory, then checks the
      combination of the name-carried hashes against `combinedHash`, deleting
      the merged file on mismatch. `names` is the directory listing. */
  function Merge(st: Store, fileName: string, combinedHash: string, names: seq<string>,
                 combine: seq<Option<string>> -> string): (out: Response)
    requires fileName in st.chunks ==> IsListing(names, st.chunks[fileName])
    ensures fileName !in st.chunks ==> out == Response(st, Reply(400, Error(NoChunksFound)))
    ensures fileName in st.chunks ==> out.store.chunks == st.chunks - {fileName}
    ensures fileName in st.chunks && NameCombinedHash(names, combine) == combinedHash ==>
      && out.reply == Reply(200, MessageWithHash(FileMerged, combinedHash))
      && out.store.merged == st.merged[fileName := MergedBytes(st.chunks[fileName], names)]
    ensures fileName in st.chunks && NameCombinedHash(names, combine) != combinedHash ==>
      && out.reply == Reply(400, Error(InvalidCombinedHash))
      && out.store.merged == st.merged - {fileName}
  {
    if fileName !in st.chunks then Response(st, Reply(400, Error(NoChunksFound)))
    else
      var written := MergedBytes(st.chunks[fileName], names);
      var remaining := st.chunks - {fileName};
      var computed := NameCombinedHash(names, combine);
      if computed != combinedHash then
        Response(Store(remaining, st.merged - {fileName}), Reply(400, Error(InvalidCombinedHash)))
      else
        Response(Store(remaining, st.merged[fileName := written]), Reply(200, MessageWithHash(FileMerged, computed)))
  }

  /** What the merge reads from a complete session: the chunks in index order,
      and the hashes in index order. */
  lemma CompleteSessionBytes(dir: ChunkDir, chunks: seq<Bytes>, hashes: seq<string>, names: seq<string>)
    requires CompleteSession(dir, chunks, hashes) && IsListing(names, dir)
    ensures MergeOrder(names) == SessionNames(hashes)
    ensures MergedBytes(dir, names) == Flatten(chunks)
  {
    SessionNodeKeys(hashes);
    SessionOrder(NodeKey, dir, chunks, hashes, names);
  }

  lemma CompleteSessionHashes(dir: ChunkDir, chunks: seq<Bytes>, hashes: seq<string>, names: seq<string>)
    requires CompleteSession(dir, chunks, hashes) && NoUnderscores(hashes) && IsListing(names, dir)
    ensures NameHashes(MergeOrder(names)) == Present(hashes)
  {
    CompleteSessionBytes(dir, chunks, hashes, names);
    SessionNameHashes(hashes);
  }

  /** A directory holding exactly the client's chunk names `i_hashes[i]` merges, in
      whatever order it is listed, into the chunks in index order; it passes the
      check exactly when `combinedHash` is the combination of `hashes` in index
      order, which is how the client forms it. */
  lemma MergeOfCompleteSession(st: Store, fileName: string, chunks: seq<Bytes>, hashes: seq<string>,
                               names: seq<string>, combinedHash: string, combine: seq<Option<string>> -> string)
    requires fileName in st.chunks && CompleteSession(st.chunks[fileName], chunks, hashes)
    requires NoUnderscores(hashes)
    requires IsListing(names, st.chunks[fileName])
    ensures var out := Merge(st, fileName, combinedHash, names, combine);
      && (out.reply.status == 200 <==> combinedHash == CombinedHash(combine, Present(hashes)))
      && (combinedHash == CombinedHash(combine, Present(hashes)) ==>
            && out.reply == Reply(200, MessageWithHash(FileMerged, combinedHash))
            && fileName in out.store.merged && out.store.merged[fileName] == Flatten(chunks))
      && fileName !in out.store.chunks
  {
    CompleteSessionBytes(st.chunks[fileName], chunks, hashes, names);
    CompleteSessionHashes(st.chunks[fileName], chunks, hashes, names);
  }

  /** The check reads only the chunk names: two stores whose chunk directories
      hold the same names get the same reply, whatever bytes the chunks hold. */
  lemma MergeReplyIgnoresBytes(st: Store, other: Store, fileName: string, combinedHash: string, names: seq<string>,
                               combine: seq<Option<string>> -> string)
    requires fileName in st.chunks <==> fileName in other.chunks
    requires fileName in st.chunks ==>
      other.chunks[fileName].Keys == st.chunks[fileName].Keys && IsListing(names, st.chunks[fileName])
    ensures fileName in other.chunks ==> IsListing(names, other.chunks[fileName])
    ensures Merge(st, fileName, combinedHash, names, combine).reply
         == Merge(other, fileName, combinedHash, names, combine).reply
  {
  }
}

=== FILE: partition.dfy ===
/** The browser client's split of a file into position-addressed chunks, one per
    reported CPU core (`showPath` in web/index.js). */
module Partition {
  import opened Common

  /** The worker count used when the browser reports no core count. */
  const DefaultWorkers: nat := 4

  /** `navigator.hardwareConcurrency || 4`: an unreported or zero count falls back
      to the default. */
  function WorkerCount(reported: Option<nat>): (w: nat)
    ensures w > 0
    ensures reported.Some? && reported.value > 0 ==> w == reported.value
    ensures reported.None? || reported.value == 0 ==> w == DefaultWorkers
  {
    match reported
    case Some(n) => if n > 0 then n else DefaultWorkers
    case None => DefaultWorkers
  }

  /** `Math.ceil(size / workers)`: the smallest chunk length for which `workers`
      chunks cover the whole file. */
  function ChunkSize(size: nat, workers: nat): (cs: nat)
    requires workers > 0
    ensures cs * workers >= size
    ensures cs > 0 ==> (cs - 1) * workers < size
  {
    var q := (size + workers - 1) / workers;
    var rem := (size + workers - 1) % workers;
    assert q * workers + rem == size + workers - 1;
    assert (q - 1) * workers == q * workers - workers;
    q
  }

  function Min(a: int, b: int): int {
    if a <= b then a else b
  }

  /** The end offset of chunk `i`: `start + chunkSize`, or the file size once that
      reaches past the end. */
  function ChunkEnd(i: nat, cs: nat, size: nat): nat {
    if i * cs + cs >= size then size else i * cs + cs
  }

  /** `Blob.slice(start, end)`: both offsets are clamped to the size, and an end
      before the start gives an empty blob. */
  function BlobSlice(f: Bytes, start: nat, end: nat): (r: Bytes)
    ensures |r| <= |f|
    ensures |r| == if Min(end, |f|) <= Min(start, |f|) then 0 else Min(end, |f|) - Min(start, |f|)
    ensures forall k :: 0 <= k < |r| ==> r[k] == f[Min(start, |f|) + k]
  {
    var s := Min(start, |f|);
    var e := Min(end, |f|);
    if e <= s then [] else f[s..e]
  }

  /** The chunks the client hashes and uploads: `chunks[i]` is
      `file.slice(i * chunkSize, end(i))` for `i` below the worker count. */
  function Split(f: Bytes, reported: Option<nat>): (chunks: seq<Bytes>)
    ensures |chunks| == WorkerCount(reported)
    ensures forall i :: 0 <= i < |chunks| ==> ChunkIsSlice(f, chunks[i], i, ChunkSize(|f|, |chunks|))
  {
    var w := WorkerCount(reported);
    var cs := ChunkSize(|f|, w);
    var chunks := seq(w, i requires 0 <= i < w => BlobSlice(f, i * cs, ChunkEnd(i, cs, |f|)));
    assert forall i :: 0 <= i < w ==> ChunkIsSlice(f, chunks[i], i, cs) by {
      forall i | 0 <= i < w
        ensures ChunkIsSlice(f, chunks[i], i, cs)
      {
        SliceOfChunk(f, i, cs);
      }
    }
    chunks
  }

  /** `chunk` is the part of `f` from `i * cs` up to `i * cs + cs`, both clamped
      to the size of `f`: at most `cs` long, and empty once `i * cs` reaches the end. */
  predicate ChunkIsSlice(f: Bytes, chunk: Bytes, i: nat, cs: nat) {
    && chunk == f[Min(i * cs, |f|)..Min(i * cs + cs, |f|)]
    && |chunk| <= cs
    && (i * cs >= |f| ==> chunk == [])
  }

  /** Chunk `i`'s `Blob.slice` is the clamped part of the file. */
  lemma SliceOfChunk(f: Bytes, i: nat, cs: nat)
    ensures ChunkIsSlice(f, BlobSlice(f, i * cs, ChunkEnd(i, cs, |f|)), i, cs)
  {
    var start := i * cs;
    assert start <= start + cs;
  }

  lemma MinMonotone(x: int, y: int, n: int)
    requires x <= y
    ensures Min(x, n) <= Min(y, n) <= n
  {
  }

  lemma MulStep(k: nat, cs: nat)
    requires k > 0
    ensures 0 <= (k - 1) * cs && (k - 1) * cs + cs == k * cs
  {
  }

  /** Chunks that each cover the next `cs` bytes add up to the first `k * cs` bytes. */
  lemma {:induction false} ContiguousPrefix(f: Bytes, chunks: seq<Bytes>, cs: nat, k: nat)
    requires k <= |chunks|
    requires forall i :: 0 <= i < |chunks| ==> ChunkIsSlice(f, chunks[i], i, cs)
    ensures Flatten(chunks[..k]) == f[..Min(k * cs, |f|)]
  {
    if k > 0 {
      ContiguousPrefix(f, chunks, cs, k - 1);
      assert chunks[..k][..k - 1] == chunks[..k - 1];
      assert Flatten(chunks[..k]) == Flatten(chunks[..k - 1]) + chunks[k - 1];
      MulStep(k, cs);
      var lo := (k - 1) * cs;
      var a := Min(lo, |f|);
      var b := Min(lo + cs, |f|);
      MinMonotone(lo, lo + cs, |f|);
      assert ChunkIsSlice(f, chunks[k - 1], k - 1, cs);
      assert chunks[k - 1] == f[a..b];
      assert b == Min(k * cs, |f|);
      assert f[..a] + f[a..b] == f[..b];
    }
  }

  /** Appending the chunks in index order reproduces the file exactly. */
  lemma SplitRoundTrip(f: Bytes, reported: Option<nat>)
    ensures Flatten(Split(f, reported)) == f
  {
    var chunks := Split(f, reported);
    ContiguousPrefix(f, chunks, ChunkSize(|f|, |chunks|), |chunks|);
    assert chunks[..|chunks|] == chunks;
    assert |chunks| * ChunkSize(|f|, |chunks|) >= |f|;
    assert f[..|f|] == f;
  }
}

=== FILE: sessions.dfy ===
/** Upload sessions that hold exactly one chunk per index: the chunk directory a
    complete run of the client leaves behind, and the order in which either merge
    engine reads it back. */
module Sessions {
  import opened Common
  import opened ChunkKey
  import opened StableSort

  /** The chunk names `i_hashes[i]`, one per index, in index order. */
  function SessionNames(hashes: seq<string>): (names: seq<string>)
    ensures |names| == |hashes|
    ensures forall i :: 0 <= i < |hashes| ==> names[i] == ChunkName(NatToDecimal(i), hashes[i])
  {
    seq(|hashes|, i requires 0 <= i < |hashes| => ChunkName(NatToDecimal(i), hashes[i]))
  }

  /** The hashes as the client's `results` array holds them: every slot filled. */
  function Present(hashes: seq<string>): (results: seq<Option<string>>)
    ensures |results| == |hashes|
    ensures forall i :: 0 <= i < |hashes| ==> results[i] == Some(hashes[i])
  {
    seq(|hashes|, i requires 0 <= i < |hashes| => Some(hashes[i]))
  }

  /** Hash text that survives `split('_')`: MD5 hex digests have no '_'. */
  predicate NoUnderscores(hashes: seq<string>) {
    forall i :: 0 <= i < |hashes| ==> '_' !in hashes[i]
  }

  /** `dir` holds chunk `i` under the name `i_hashes[i]` for every index, and nothing else. */
  ghost predicate CompleteSession(dir: ChunkDir, chunks: seq<Bytes>, hashes: seq<string>) {
    && |chunks| == |hashes|
    && (forall k :: k in dir <==> k in SessionNames(hashes))
    && (forall i :: 0 <= i < |hashes| ==> SessionNames(hashes)[i] in dir && dir[SessionNames(hashes)[i]] == chunks[i])
  }

  /** The Node merge sorts session name `i` under index `i`. */
  lemma SessionNodeKeys(hashes: seq<string>)
    ensures forall i :: 0 <= i < |hashes| ==> NodeKey(SessionNames(hashes)[i]) == Some(i)
  {
    forall i | 0 <= i < |hashes|
      ensures NodeKey(SessionNames(hashes)[i]) == Some(i)
    {
      NodeKeyRoundTrip(i, hashes[i]);
    }
  }

  /** The Java merges sort session name `i` under index `i`. */
  lemma SessionJavaKeys(hashes: seq<string>)
    requires |hashes| <= MaxInt32 + 1
    ensures forall i :: 0 <= i < |hashes| ==> JavaKey(SessionNames(hashes)[i]) == Some(i)
  {
    forall i | 0 <= i < |hashes|
      ensures JavaKey(SessionNames(hashes)[i]) == Some(i)
    {
      JavaKeyRoundTrip(i as int32, hashes[i]);
      assert IntToDecimal(i) == NatToDecimal(i);
    }
  }

  /** Session name `i` carries `hashes[i]` as its second segment. */
  lemma SessionNameHashes(hashes: seq<string>)
    requires NoUnderscores(hashes)
    ensures forall i :: 0 <= i < |hashes| ==> SecondSegment(SessionNames(hashes)[i]) == Some(hashes[i])
  {
    forall i | 0 <= i < |hashes|
      ensures SecondSegment(SessionNames(hashes)[i]) == Some(hashes[i])
    {
      NodeDecodeRoundTrip(i, hashes[i]);
    }
  }

  lemma {:induction false} DistinctMultiset(xs: seq<string>)
    requires forall i, j :: 0 <= i < j < |xs| ==> xs[i] != xs[j]
    ensures multiset(xs) == multiset(set x | x in xs)
    decreases |xs|
  {
    if |xs| > 0 {
      var init := xs[..|xs| - 1];
      var last := xs[|xs| - 1];
      DistinctMultiset(init);
      assert xs == init + [last];
      assert last !in init by {
        forall i | 0 <= i < |init|
          ensures init[i] != last
        {
          assert init[i] == xs[i];
        }
      }
      assert (set x | x in xs) == (set x | x in init) + {last};
      assert last !in (set x | x in init);
    }
  }

  /** The session names are in strictly ascending key order, and are exactly the
      names a complete session's directory holds, once each. */
  lemma SessionListing(key: string -> Option<int>, dir: ChunkDir, chunks: seq<Bytes>, hashes: seq<string>)
    requires CompleteSession(dir, chunks, hashes)
    requires forall i :: 0 <= i < |hashes| ==> key(SessionNames(hashes)[i]) == Some(i)
    ensures StrictlySortedBy(key, SessionNames(hashes))
    ensures multiset(SessionNames(hashes)) == multiset(dir.Keys)
  {
    var target := SessionNames(hashes);
    assert StrictlySortedBy(key, target);
    assert forall i, j :: 0 <= i < j < |target| ==> target[i] != target[j] by {
      forall i, j | 0 <= i < j < |target|
        ensures target[i] != target[j]
      {
        assert key(target[i]) != key(target[j]);
      }
    }
    DistinctMultiset(target);
    assert dir.Keys == (set x | x in target);
  }

  /** Whatever order the directory lists a complete session in, sorting by `key`
      restores index order, so the merge reads the chunks back in index order. */
  lemma SessionOrder(key: string -> Option<int>, dir: ChunkDir, chunks: seq<Bytes>, hashes: seq<string>, names: seq<string>)
    requires CompleteSession(dir, chunks, hashes) && IsListing(names, dir)
    requires forall i :: 0 <= i < |hashes| ==> key(SessionNames(hashes)[i]) == Some(i)
    ensures InsertionSort(key, names) == SessionNames(hashes)
    ensures forall k :: k in SessionNames(hashes) ==> k in dir
    ensures ReadChunks(dir, SessionNames(hashes)) == chunks
  {
    SessionListing(key, dir, chunks, hashes);
    SortOfPermutation(key, names, SessionNames(hashes));
  }
}

=== FILE: stable_sort.dfy ===
/** The merge engines' ordering step: a stable sort of the directory listing by the
    integer prefix of each name. Both JavaScript's `Array.prototype.sort` and
    Java's `List.sort` are stable, so names with equal keys keep the order in which
    the directory listed them. */
module StableSort {
  import opened Common

  /** JavaScript's `indexA - indexB`: `NaN` (`None`) when either index is `NaN`. */
  function JsDifference(a: Option<int>, b: Option<int>): Option<int> {
    if a.Some? && b.Some? then Some(a.value - b.value) else None
  }

  /** Java's `Integer.compare(a, b)`. */
  function JavaCompare(a: int, b: int): int {
    if a < b then -1 else if a == b then 0 else 1
  }

  /** The comparator result is positive, so the sort places `x` after `y`. A
      missing key (`NaN` in JavaScript) never compares as larger. */
  predicate After<T>(key: T -> Option<int>, x: T, y: T) {
    key(x).Some? && key(y).Some? && key(x).value > key(y).value
  }

  /** `After` is exactly a positive result of the Node comparator `indexA - indexB`
      and, when both indices parse, of Java's `Integer.compare`. */
  lemma AfterMatchesComparators<T>(key: T -> Option<int>, x: T, y: T)
    ensures After(key, x, y) <==> var d := JsDifference(key(x), key(y)); d.Some? && d.value > 0
    ensures key(x).Some? && key(y).Some? ==> (After(key, x, y) <==> JavaCompare(key(x).value, key(y).value) > 0)
  {
  }

  predicate AllKeyed<T>(key: T -> Option<int>, xs: seq<T>) {
    forall i :: 0 <= i < |xs| ==> key(xs[i]).Some?
  }

  /** Every earlier element has a key no larger than every later one. */
  predicate SortedBy<T>(key: T -> Option<int>, xs: seq<T>) {
    forall i, j :: 0 <= i < j < |xs| ==>
      key(xs[i]).Some? && key(xs[j]).Some? && key(xs[i]).value <= key(xs[j]).value
  }

  /** Every earlier element has a key smaller than every later one. */
  predicate StrictlySortedBy<T>(key: T -> Option<int>, xs: seq<T>) {
    forall i, j :: 0 <= i < j < |xs| ==>
      key(xs[i]).Some? && key(xs[j]).Some? && key(xs[i]).value < key(xs[j]).value
  }

  /** Places `x` in front of `s`, moving it past exactly the leading elements
      it compares after. */
  function Insert<T>(key: T -> Option<int>, x: T, s: seq<T>): (r: seq<T>)
    ensures multiset(r) == multiset(s) + multiset{x}
  {
    if |s| > 0 && After(key, x, s[0]) then
      assert s == [s[0]] + s[1..];
      [s[0]] + Insert(key, x, s[1..])
    else
      [x] + s
  }

  lemma {:induction false} InsertSorted<T>(key: T -> Option<int>, x: T, s: seq<T>)
    requires AllKeyed(key, s) && key(x).Some? && SortedBy(key, s)
    ensures AllKeyed(key, Insert(key, x, s)) && SortedBy(key, Insert(key, x, s))
    decreases |s|
  {
    var r := Insert(key, x, s);
    if |s| > 0 && After(key, x, s[0]) {
      var t := s[1..];
      var r' := Insert(key, x, t);
      InsertSorted(key, x, t);
      assert r == [s[0]] + r';
      forall j | 0 <= j < |r'|
        ensures key(s[0]).value <= key(r'[j]).value
      {
        assert r'[j] in multiset(r');
        if r'[j] != x {
          assert r'[j] in multiset(t);
          var m :| 0 <= m < |t| && t[m] == r'[j];
          assert s[m + 1] == r'[j];
        }
      }
    } else {
      assert r == [x] + s;
      if |s| > 0 {
        assert key(x).value <= key(s[0]).value;
      }
    }
  }

  /** A stable insertion sort: the first element goes in after the rest is sorted,
      in front of every element whose key is not smaller. */
  function InsertionSort<T>(key: T -> Option<int>, xs: seq<T>): (r: seq<T>)
    ensures multiset(r) == multiset(xs)
    ensures AllKeyed(key, xs) ==> SortedBy(key, r)
  {
    if |xs| == 0 then []
    else
      assert xs == [xs[0]] + xs[1..];
      var rest := InsertionSort(key, xs[1..]);
      if AllKeyed(key, xs) then
        assert multiset(rest) == multiset(xs[1..]);
        assert AllKeyed(key, rest) by {
          forall i | 0 <= i < |rest|
            ensures key(rest[i]).Some?
          {
            assert rest[i] in multiset(xs[1..]);
            var m :| 0 <= m < |xs[1..]| && xs[1..][m] == rest[i];
            assert xs[m + 1] == rest[i];
          }
        }
        InsertSorted(key, xs[0], rest);
        Insert(key, xs[0], rest)
      else
        Insert(key, xs[0], rest)
  }

  // ---------------------------------------------------------------------------
  // Stability
  // ---------------------------------------------------------------------------

  /** The elements of `xs` whose key is `k`, in their order in `xs`. */
  function WithKey<T>(key: T -> Option<int>, xs: seq<T>, k: Option<int>): seq<T> {
    if |xs| == 0 then []
    else if key(xs[0]) == k then [xs[0]] + WithKey(key, xs[1..], k)
    else WithKey(key, xs[1..], k)
  }

  lemma {:induction false} InsertWithKey<T>(key: T -> Option<int>, x: T, s: seq<T>, k: Option<int>)
    ensures WithKey(key, Insert(key, x, s), k)
         == if key(x) == k then [x] + WithKey(key, s, k) else WithKey(key, s, k)
    decreases |s|
  {
    if |s| > 0 && After(key, x, s[0]) {
      InsertWithKey(key, x, s[1..], k);
      var r := Insert(key, x, s);
      assert r[0] == s[0] && r[1..] == Insert(key, x, s[1..]);
      // s[0] was passed over, so its key differs from x's
      assert key(s[0]) != key(x);
    } else {
      var r := Insert(key, x, s);
      assert r[0] == x && r[1..] == s;
    }
  }

  /** `order` is `xs` stably sorted by `key`: the same elements, ascending when
      every key is present, and elements of equal key in their order in `xs`. */
  ghost predicate StablySorted<T>(key: T -> Option<int>, order: seq<T>, xs: seq<T>) {
    && multiset(order) == multiset(xs)
    && (AllKeyed(key, xs) ==> SortedBy(key, order))
    && forall k :: WithKey(key, order, k) == WithKey(key, xs, k)
  }

  /** The insertion sort is a stable sort. */
  lemma SortIsStableSort<T>(key: T -> Option<int>, xs: seq<T>)
    ensures StablySorted(key, InsertionSort(key, xs), xs)
  {
    forall k
      ensures WithKey(key, InsertionSort(key, xs), k) == WithKey(key, xs, k)
    {
      SortIsStable(key, xs, k);
    }
  }

  /** Ties keep the listing order: for every key, the elements carrying it appear
      in the sorted sequence in the same order as in the input. */
  lemma {:induction false} SortIsStable<T>(key: T -> Option<int>, xs: seq<T>, k: Option<int>)
    ensures WithKey(key, InsertionSort(key, xs), k) == WithKey(key, xs, k)
    decreases |xs|
  {
    if |xs| > 0 {
      SortIsStable(key, xs[1..], k);
      InsertWithKey(key, xs[0], InsertionSort(key, xs[1..]), k);
    }
  }

  // ---------------------------------------------------------------------------
  // Uniqueness: distinct keys leave the sort no choice
  // ---------------------------------------------------------------------------

  lemma MultisetMember<T>(a: seq<T>, b: seq<T>, i: nat)
    requires multiset(a) == multiset(b) && i < |a|
    ensures exists j :: 0 <= j < |b| && b[j] == a[i]
  {
    assert a[i] in multiset(a);
    assert a[i] in b;
  }

  /** The first element of a sorted sequence of two or more is keyed and no
      larger than any element. */
  lemma SortedFirst<T>(key: T -> Option<int>, a: seq<T>, k: nat)
    requires SortedBy(key, a) && |a| >= 2 && k < |a|
    ensures key(a[0]).Some? && key(a[k]).Some? && key(a[0]).value <= key(a[k]).value
  {
    var first, second := a[0], a[1];
    assert key(first).Some? && key(second).Some?;
    if k > 0 {
      assert 0 < k < |a|;
    }
  }

  /** Every element of a strictly sorted sequence of two or more is keyed, and
      every one after the first is larger than the first. */
  lemma StrictFirst<T>(key: T -> Option<int>, b: seq<T>, j: nat)
    requires StrictlySortedBy(key, b) && |b| >= 2 && j < |b|
    ensures key(b[0]).Some? && key(b[j]).Some?
    ensures j > 0 ==> key(b[0]).value < key(b[j]).value
  {
    var first, second := b[0], b[1];
    assert key(first).Some? && key(second).Some?;
    if j > 0 {
      assert 0 < j < |b|;
    }
  }

  lemma SameFirst<T>(key: T -> Option<int>, a: seq<T>, b: seq<T>)
    requires SortedBy(key, a) && StrictlySortedBy(key, b)
    requires multiset(a) == multiset(b) && |a| > 0 && |b| > 0
    ensures a[0] == b[0]
  {
    MultisetMember(a, b, 0);
    var j :| 0 <= j < |b| && b[j] == a[0];
    MultisetMember(b, a, 0);
    var k :| 0 <= k < |a| && a[k] == b[0];
    assert |a| == |multiset(a)| == |multiset(b)| == |b|;
    if |a| >= 2 {
      SortedFirst(key, a, k);
      StrictFirst(key, b, j);
      assert j == 0;
    }
  }

  lemma TailsPermutation<T>(a: seq<T>, b: seq<T>)
    requires multiset(a) == multiset(b) && |a| > 0 && |b| > 0 && a[0] == b[0]
    ensures multiset(a[1..]) == multiset(b[1..])
  {
    assert a == [a[0]] + a[1..] && b == [b[0]] + b[1..];
    assert multiset(a[1..]) == multiset(a) - multiset{a[0]};
    assert multiset(b[1..]) == multiset(b) - multiset{b[0]};
  }

  /** A sorted sequence and a strictly sorted one with the same elements are equal. */
  lemma {:induction false} SortedPermutationUnique<T>(key: T -> Option<int>, a: seq<T>, b: seq<T>)
    requires SortedBy(key, a) && StrictlySortedBy(key, b)
    requires multiset(a) == multiset(b)
    ensures a == b
    decreases |a|
  {
    assert |a| == |multiset(a)| == |multiset(b)| == |b|;
    if |a| > 0 {
      SameFirst(key, a, b);
      TailsPermutation(a, b);
      SortedPermutationUnique(key, a[1..], b[1..]);
      assert a == [a[0]] + a[1..] && b == [b[0]] + b[1..];
    }
  }

  lemma StrictlySortedIsKeyed<T>(key: T -> Option<int>, xs: seq<T>, target: seq<T>)
    requires multiset(xs) == multiset(target) && StrictlySortedBy(key, target) && |target| >= 2
    ensures AllKeyed(key, xs)
  {
    forall i | 0 <= i < |xs|
      ensures key(xs[i]).Some?
    {
      MultisetMember(xs, target, i);
      var j :| 0 <= j < |target| && target[j] == xs[i];
      StrictFirst(key, target, j);
    }
  }

  /** Sorting any enumeration of a strictly sorted sequence's elements yields
      that sequence: when no two names share an index, the listing order does
      not matter. */
  lemma SortOfPermutation<T>(key: T -> Option<int>, xs: seq<T>, target: seq<T>)
    requires multiset(xs) == multiset(target) && StrictlySortedBy(key, target)
    ensures InsertionSort(key, xs) == target
  {
    var r := InsertionSort(key, xs);
    if |target| >= 2 {
      StrictlySortedIsKeyed(key, xs, target);
    } else {
      assert |r| == |multiset(r)| == |multiset(target)| == |target|;
    }
    SortedPermutationUnique(key, r, target);
  }
}
